=== FILE: README.md ===
# cio core, modelled in Dafny

This project models the pure logic at the heart of Oxide's `cio` automation service.

- **Applicants.** The hiring spreadsheet is read one row at a time into a `NewApplicant` by `NewApplicant::parse`. An applicant is then shown in Slack by `NewApplicant::as_slack_msg`.
- **RFDs.** `NewRFD::expand` fills in the generated fields of an RFD: the padded number, the name, the links, the branch and the directory.
- **Journal club.** `meetings.json` meetings are turned into database records, and the `%m/%d/%Y` date codec reads and writes their dates. The database and Airtable are refreshed from them, and a meeting is rendered for Slack.
- **SendGrid.** The v3 mail-send client covers the message records and their builders, the HTTP request it issues, and the five canned emails.

Every effect is made explicit:

- **Network, database and Airtable calls.** These become data. A refresh returns the list of writes it would issue. An Airtable sync returns the create/update operations it would send. A send returns the request it would post.
- **Panics.** An out-of-range row index, an unparsable timestamp, the column-letter `unwrap`, an invalid bearer header, a stored paper that does not decode, an Airtable meeting record without an id and a rejected response are `Err` values. The other `unwrap`s are listed under "## Left out".
- **Clock and human-readable durations.** These are parameters.

| file | module | models |
|---|---|---|
| `wrappers.dfy` | `Wrappers` | `Option` and `Result` |
| `strings.dfy` | `Strings` | `trim`, ASCII `to_lowercase`, `starts_with`, `contains`, `trim_start_matches`, `trim_end_matches`, `replace(c, "")` |
| `decimal.dfy` | `Decimal` | decimal digits, `to_string` of integers, zero padding, digit scanning |
| `meeting_dates.dfy` | `MeetingDates` | chrono's `NaiveDate`, `format("%m/%d/%Y")` and `parse_from_str(.., "%m/%d/%Y")`; `meeting_date_format` |
| `paper_codec.dfy` | `PaperCodec` | a journal-club paper and the text it is stored as |
| `slack.dfy` | `Slack` | message blocks and `<url\|text>` links |
| `applicants.dfy` | `Applicants` | `NewApplicant::parse`, `NewApplicant::as_slack_msg` |
| `rfds.dfy` | `Rfds` | `NewRFD::expand` |
| `journal_models.dfy` | `JournalModels` | `NewJournalClubMeeting`, `JournalClubMeeting::as_slack_msg` |
| `journal_clubs.dfy` | `JournalClubs` | `Meeting::to_model`, the database refresh, the two Airtable refreshes |
| `sendgrid.dfy` | `SendGrid` | the SendGrid client |

## Model

| member | source | states |
|---|---|---|
| Strings.TrimEmptyIffBlank | cio/src/journal_clubs.rs:84 | `trim()` of a text is empty exactly when every character is whitespace, the test `deserialize` uses for a blank date |
| Decimal.ValueInjective | cio/src/models.rs:1885-1888 | two digit strings of the same length with the same value are equal, which makes padded numbers and dates readable back |
| Decimal.ValueIgnoresLeadingZeros | cio/src/models.rs:1885-1888 | putting '0's in front of a decimal keeps its value |
| Decimal.ScanNumberAll | cio/src/journal_clubs.rs:87 | a digit scanner reads back a whole run of digits as its value |
| MeetingDates.Pad2 | cio/src/journal_clubs.rs:48 | `%m` and `%d` write two digits whose value is the month or day |
| MeetingDates.YearText | cio/src/journal_clubs.rs:48 | `%Y` writes four digits for years 0 to 9999 and a '-' or '+' sign before the other years |
| MeetingDates.FormatLayout | cio/src/journal_clubs.rs:48 | a formatted date is month, '/', day, '/', year, each field reading back as the date's own |
| MeetingDates.ScanSlash | cio/src/journal_clubs.rs:48 | the literal '/' of the format matches exactly one leading '/' |
| MeetingDates.FromFields | cio/src/journal_clubs.rs:87 | scanned numbers give a date exactly when they name a real calendar day |
| MeetingDates.Parse | cio/src/journal_clubs.rs:87 | a blank text is a parse error |
| MeetingDates.ScanYearDigits | cio/src/journal_clubs.rs:87 | the `%Y` scanner reads one to four unsigned digits back as their value |
| MeetingDates.ScanYearSignedDigits | cio/src/journal_clubs.rs:87 | the `%Y` scanner reads a '-' before digits `ds` as -Value(ds), and a '+' before them as Value(ds), however many digits there are |
| MeetingDates.ScanYearUnsigned | cio/src/journal_clubs.rs:48 | the four-digit text of a year from 0 to 9999 scans back as that year |
| MeetingDates.ScanYearSigned | cio/src/journal_clubs.rs:48 | the signed text of a year below 0 or from 10000 on scans back as that year |
| MeetingDates.ScanYearOfFormat | cio/src/journal_clubs.rs:48 | the `%Y` scanner reads the text of every year back as that year |
| MeetingDates.ParseFieldsText | cio/src/journal_clubs.rs:87 | parsing a `%m/%d/%Y` text reads back the three numbers written into it |
| MeetingDates.ParseFormat | cio/src/journal_clubs.rs:58-70 | parsing the formatted text of any date gives that date back |
| MeetingDates.FormatInjective | cio/src/journal_clubs.rs:58-70 | two dates are formatted the same exactly when they are the same date |
| MeetingDates.FormatSentinel | cio/src/journal_clubs.rs:49 | the 1969-01-01 sentinel formats as `DEFAULT_DATE`, "01/01/1969" |
| MeetingDates.ParseSentinelText | cio/src/journal_clubs.rs:49 | `DEFAULT_DATE` parses as the sentinel date |
| MeetingDates.FormatIsSentinelText | cio/src/journal_clubs.rs:64-66 | a date's text equals `DEFAULT_DATE` exactly when the date is the sentinel |
| MeetingDates.Serialize | cio/src/journal_clubs.rs:58-70 | the text is empty exactly for the sentinel date; every other date is written `%m/%d/%Y` |
| MeetingDates.Deserialize | cio/src/journal_clubs.rs:79-88 | a blank or whitespace-only text is the sentinel date; any other text is parsed as `%m/%d/%Y` |
| MeetingDates.DeserializeSerialize | cio/src/journal_clubs.rs:58-88 | every date, the sentinel included, survives serialization followed by deserialization |
| PaperCodec.DecodeEncode | cio/src/journal_clubs.rs:93-97 | a stored paper decodes to the paper that was stored |
| PaperCodec.EncodeInjective | cio/src/journal_clubs.rs:93-97 | two papers are stored as the same text exactly when they are equal |
| PaperCodec.DecodeAll | cio/src/models.rs:1318-1319 | decoding a list gives one paper per stored text, each that text's decoding, and fails only when some text does not decode |
| PaperCodec.EncodeAll | cio/src/journal_clubs.rs:93-97 | one stored text per paper |
| PaperCodec.DecodeAllEncodeAll | cio/src/journal_clubs.rs:93-97 | a stored list of papers decodes back to the list, in order |
| JournalModels.PaperLabel | cio/src/models.rs:1323-1326 | a paper is labelled "Paper" exactly when its title repeats the meeting's title, and otherwise by its title |
| JournalModels.PaperBlocks | cio/src/models.rs:1318-1336 | one context block per paper, in order, linking the paper under its label |
| JournalModels.MeetingInfo | cio/src/models.rs:1281-1302 | the meeting date is shown only when it is not the sentinel date, and in `%m/%d/%Y` |
| JournalModels.RecordingBlocks | cio/src/models.rs:1304-1316 | there is one recording block exactly when there is a recording |
| JournalModels.Blocks | cio/src/models.rs:1266-1343 | the title, then the info line, then the recording block, then the paper blocks in order |
| JournalModels.MeetingBlocks | cio/src/models.rs:1266-1343 | a meeting renders exactly when all its stored papers decode, and then as title, info, recording and papers |
| JournalClubs.ToModel | cio/src/journal_clubs.rs:92-109 | every field of the meeting is carried into the record, with one stored text per paper |
| JournalClubs.ToModelPapers | cio/src/journal_clubs.rs:92-109 | the record's stored papers decode back to the meeting's papers |
| JournalClubs.StoredMeetingRenders | cio/src/journal_clubs.rs:92-109 | a meeting stored by `to_model` always renders in Slack, showing the meeting's own papers |
| JournalClubs.MeetingUpserts | cio/src/journal_clubs.rs:139-146 | the meeting as `to_model` stores it is written first, then each of its papers in order, with only the `meeting` field changed, to the meeting's issue |
| JournalClubs.LastMeetingIssueAppend | cio/src/journal_clubs.rs:136-146 | the last meeting written in a concatenation of writes comes from the second part if it writes any meeting |
| JournalClubs.MeetingsWrittenAppend | cio/src/journal_clubs.rs:136-146 | the meetings written by a concatenation are those of each part, in order |
| JournalClubs.UpsertsTagged | cio/src/journal_clubs.rs:136-146 | within one meeting's writes, the meeting most recently written is always that meeting |
| JournalClubs.MeetingUpsertsWritten | cio/src/journal_clubs.rs:136-146 | one meeting's writes store exactly that meeting, as `to_model` builds it |
| JournalClubs.PapersWriteNoMeeting | cio/src/journal_clubs.rs:141-145 | paper writes write no meeting |
| JournalClubs.TaggedInHead | cio/src/journal_clubs.rs:136-146 | every write of a meeting's block is tagged, whatever follows |
| JournalClubs.TaggedInTail | cio/src/journal_clubs.rs:136-146 | prefixing writes keeps later writes tagged |
| JournalClubs.PapersTaggedWithMeeting | cio/src/journal_clubs.rs:132-148 | every paper the refresh writes belongs to the meeting written just before it |
| JournalClubs.RefreshDbWritesEveryMeeting | cio/src/journal_clubs.rs:132-148 | the refresh writes every repository meeting once, in order, as `to_model` stores it |
| JournalClubs.LastWinsKeys | cio/src/journal_clubs.rs:163-172 | the index holds exactly the keys inserted into it |
| JournalClubs.LastWinsValue | cio/src/journal_clubs.rs:163-172 | for each key the index keeps the value of the last insertion |
| JournalClubs.Route | cio/src/journal_clubs.rs:184-207 | an existing record is updated exactly when its id is indexed, keeping that record's Airtable id; otherwise one is created |
| JournalClubs.CountUpdatesAppend | cio/src/journal_clubs.rs:201 | the counter goes up exactly for an update |
| JournalClubs.CountUpdatesBounds | cio/src/journal_clubs.rs:201 | the counter is at most the number of operations; it equals it exactly when all are updates, and is zero exactly when all are creates |
| JournalClubs.ByIdKeys | cio/src/journal_clubs.rs:163-172 | the meeting index holds exactly the ids of the Airtable records |
| JournalClubs.ByIdLast | cio/src/journal_clubs.rs:163-172 | the meeting index keeps, for each id, the last record that carries it |
| JournalClubs.MeetingPayload | cio/src/journal_clubs.rs:180-191 | a pushed meeting keeps every field except its papers, which are those of the matching Airtable record, or none |
| JournalClubs.PlanMeetings | cio/src/journal_clubs.rs:150-211 | one operation per database meeting, in order, each routed on the index, and the count is the number of updates |
| JournalClubs.LinkPaper | cio/src/journal_clubs.rs:261-272 | a paper is linked to its meeting's record exactly when the meeting is indexed with a non-empty record id; otherwise it is pushed unchanged |
| JournalClubs.ByIssue | cio/src/journal_clubs.rs:246-254 | the issue index fails exactly when some meeting record has no record id, and otherwise holds every meeting's issue |
| JournalClubs.PlanPapers | cio/src/journal_clubs.rs:213-299 | fails exactly when the issue index fails; otherwise one operation per database paper, linked and routed, with the number of updates counted |
| JournalClubs.MeetingRouted | cio/src/journal_clubs.rs:184-207 | a meeting is an update exactly when some Airtable record carries its id |
| JournalClubs.MeetingUpdatesLastRecord | cio/src/journal_clubs.rs:163-207 | an update targets the last Airtable record with the meeting's id and carries that record's papers |
| JournalClubs.FirstSyncCreatesAll | cio/src/journal_clubs.rs:178-208 | against an empty table every meeting is created and nothing is counted |
| JournalClubs.ByIssueLast | cio/src/journal_clubs.rs:246-254 | an issue maps to the record id of the last meeting record with that issue |
| JournalClubs.PaperLinkedToMeeting | cio/src/journal_clubs.rs:261-272 | a paper whose meeting is the issue of a record with a non-empty id is linked to that record |
| JournalClubs.PaperUnlinkedKept | cio/src/journal_clubs.rs:261-272 | a paper whose meeting is not the issue of any Airtable meeting is pushed as loaded: its meeting link is kept, not cleared |
| Rfds.NumberString | cio/src/models.rs:1885-1888 | the padded number is at least four long and is the decimal with only '0's put in front |
| Rfds.PadNumber | cio/src/models.rs:1885-1888 | the padding loop computes the padded number |
| Rfds.PadFour | cio/src/models.rs:1885-1888 | the loop puts '0's in front until the text is four long |
| Decimal.NatToStringLength | cio/src/models.rs:1885-1888 | a number is written in at most `w` digits exactly when it is below ten to the `w`, so padding to four touches exactly the numbers below 1000 |
| Rfds.NumberStringValue | cio/src/models.rs:1885-1888 | for numbers from 0 on, the padded number reads back as the number |
| Rfds.NumberStringLength | cio/src/models.rs:1885-1888 | four digits or more are left alone; fewer are padded to exactly four |
| Rfds.NumberStringInjective | cio/src/models.rs:1885-1888 | two numbers from 0 on share a padded number only when they are equal |
| Rfds.Expand | cio/src/models.rs:1885-1907 | the number string is the padded number; the name is "RFD {number} {title}" and the short link `https://{number}.rfd.oxide.computer`; the branch is "master" exactly when the link contains "/master/" and the padded number otherwise; the rendered link and the directory end in the padded number |
| Rfds.NumberStringNotMaster | cio/src/models.rs:1901-1904 | a padded number is never the word "master", so the branch test cannot be fooled by the number |
| Applicants.FirstMatchAt | cio/src/models.rs:338-428 | an `if .. else if` chain takes the first arm that fires |
| Applicants.FirstMatchNone | cio/src/models.rs:338-428 | when no arm fires, the chain falls through to its default |
| Applicants.FirstMatchResult | cio/src/models.rs:162-184 | the chain yields its default or one of its arms' results |
| Applicants.FirstMatchAvoids | cio/src/models.rs:338-428 | a result no arm carries can only be the default |
| Applicants.Cell | cio/src/models.rs:154 | a cell exists exactly when the row reaches its column; otherwise the row is too short |
| Applicants.OptionalCell | cio/src/models.rs:188-230 | an optional column is read, trimmed and lower-cased only when it is configured and on the row; otherwise it is empty |
| Applicants.TensionValues | cio/src/models.rs:232-248 | the first and then the second tension value, each only when its column is present |
| Applicants.RowStatus | cio/src/models.rs:162-184 | the status is one of the seven canonical statuses; a row without the column needs triage |
| Applicants.NextStepsWins | cio/src/models.rs:165-166 | a status cell mentioning "next steps" is "Next steps" |
| Applicants.UnknownStatusNeedsTriage | cio/src/models.rs:162-184 | a status cell containing none of the keywords needs triage |
| Applicants.SentEmailReceived | cio/src/models.rs:250-257 | the email counts as sent exactly when the lower-cased cell does not contain "false" |
| Applicants.ColumnLetter | cio/src/models.rs:279-282 | only the first 26 columns have a letter, the one at that offset from 'A' |
| Applicants.SentEmailCell | cio/src/models.rs:279-284 | the cell name is the column's letter followed by the 1-based row number; columns past 'Z' are an error |
| Applicants.Handle | cio/src/models.rs:300-310 | a handle starts with '@' and never ends in '/' |
| Applicants.Handles | cio/src/models.rs:297-326 | a blank cell gives no handles; at most one handle is set, starting with '@' and not ending in '/'; the GitLab handle is set exactly when the GitHub handle holds "https://gitlab.com" (its value is stated by `GitlabProfileHandle`) |
| Applicants.BlankCellNoHandles | cio/src/models.rs:297-299 | a whitespace-only GitHub cell gives neither handle |
| Applicants.ProfileUrlNormal | cio/src/models.rs:301-304 | a GitHub profile URL is already trimmed and lower case |
| Applicants.ProfileUrlPath | cio/src/models.rs:305-308 | stripping the profile prefixes from a profile URL leaves the user name and the optional '/' |
| Applicants.PlainHandleNotGitlab | cio/src/models.rs:313 | a handle made from a user name without '/' never looks like a GitLab URL |
| Applicants.TrimUserSlash | cio/src/models.rs:309 | trimming trailing '/'s gives back the user name |
| Applicants.GithubProfileHandle | cio/src/models.rs:297-326 | a GitHub profile URL, with or without a trailing '/', gives the handle "@user" and no GitLab handle |
| Applicants.SiteUrlNormal | cio/src/models.rs:302-304 | a profile URL of either site is already trimmed and lower case, so `trim().to_lowercase()` leaves it alone |
| Applicants.GitlabUrlGithubPath | cio/src/models.rs:305-308 | none of the GitHub prefixes is stripped from a GitLab URL |
| Applicants.GitlabUrlHandle | cio/src/models.rs:300-313 | the GitHub handle built from a GitLab URL holds "https://gitlab.com", so the GitLab branch is taken |
| Applicants.GitlabUrlPath | cio/src/models.rs:321-323 | stripping "https://gitlab.com/" and '@' from a GitLab URL leaves the user name and the optional '/' |
| Applicants.GitlabProfileHandle | cio/src/models.rs:299-325 | a GitLab profile URL in the GitHub column gives no GitHub handle and the GitLab handle "@" + user, with or without a trailing '/' |
| Applicants.CleanPhone | cio/src/models.rs:330-336 | the cleaned phone keeps exactly the characters of the trimmed cell that are not spaces, dashes, pluses or parentheses |
| Applicants.CleanPhoneIsFilter | cio/src/models.rs:330-336 | the cleaned phone is the trimmed cell with that punctuation filtered out, order kept |
| Applicants.CountryCode | cio/src/models.rs:430-432 | the stored country code is two lower-case letters |
| Applicants.UnitedKingdomPhone | cio/src/models.rs:339-346 | a UK location with a "44" phone is GB |
| Applicants.UnitedKingdomNeedsPrefix | cio/src/models.rs:338-428 | without a "44" phone the guess is never GB, whatever the location says |
| Applicants.UnitedKingdomNeedsKeyword | cio/src/models.rs:338-428 | without a UK keyword in the location the guess is never GB, whatever the phone says |
| Applicants.GuessCountryGbIff | cio/src/models.rs:339-346 | the guess is GB exactly when the location holds a UK keyword and the phone starts with "44" |
| Applicants.UnknownLocationIsUS | cio/src/models.rs:338-428 | a location that matches no arm is US |
| Applicants.Cells | cio/src/models.rs:299-330 | reading several columns succeeds exactly when all are on the row; otherwise the first missing one is the error |
| Applicants.SubmittedTime | cio/src/models.rs:154-158 | the time is the timestamp cell parsed with the Pacific offset appended; a short row or a bad timestamp is an error |
| Applicants.MarkCell | cio/src/models.rs:261-289 | a cell to mark is named exactly for an applicant whose email was not sent, and only for columns up to 'Z' |
| Applicants.Build | cio/src/models.rs:619-658 | the applicant's status is canonical, its location and phone are cleaned, its country code follows from them, and its handles come from the GitHub cell. Each optional column is "" when absent and otherwise the trimmed, lower-cased cell, and the tension values are column 1's before column 2's. The time, email, name, resume, materials, role and sheet id are the values read for them |
| Applicants.Parse | cio/src/models.rs:144-659 | a parsed row was readable; the applicant is new exactly when the email was not sent, and only then has a cell to mark |
| Applicants.LaterCellsOk | cio/src/models.rs:297-330 | the unchecked columns read exactly when all are on the row, and each gives its own cell |
| Applicants.ParseEffects | cio/src/models.rs:250-292 | a new applicant is emailed at their address once the timestamp, sent-email and email cells are read, and the sent-email cell is then marked unless its column has no letter; nothing is sent or marked otherwise |
| Applicants.ParseEffectsOk | cio/src/models.rs:250-292 | on a parsed row, the email went out exactly for a new applicant, to the applicant's address, and the marked cell is the one `Parse` returns |
| Applicants.ParseLaterShortRow | cio/src/models.rs:263-330 | a row too short for a later column fails on the first missing one, after a new applicant has been emailed and the cell marked |
| Applicants.ParseReadable | cio/src/models.rs:144-659 | a readable row parses, and each field of the applicant comes from its own cell: the time, email, name, resume, materials, location, phone, handles, status, the five optional columns and the tension values. The country code follows from the cleaned location and phone, and the role and sheet id are the sheet's |
| Applicants.ParseShortRow | cio/src/models.rs:154 | a row too short for the timestamp fails on it first |
| Applicants.ParseBadTimestamp | cio/src/models.rs:154-158 | a timestamp that does not parse fails the row |
| Applicants.ParseNoColumnLetter | cio/src/models.rs:279-284 | a new applicant whose sent-email column is past 'Z' fails on the column letter |
| Applicants.ValuesMessage | cio/src/models.rs:793-810 | building the values line one `format!` at a time gives the values text |
| Applicants.AppendTensions | cio/src/models.rs:801-807 | the loop appends every tension value's part, in order |
| Applicants.FormatTension | cio/src/models.rs:802-806 | the first tension value is introduced with "in tension", later ones joined with "&" |
| Applicants.TensionTextEmpty | cio/src/models.rs:801-807 | there is tension text exactly when there are tension values |
| Applicants.ValuesPlaceholderIff | cio/src/models.rs:808-810 | the placeholder shows exactly when no value is set |
| Applicants.ReflectedNotPlaceholder | cio/src/models.rs:794-797 | a reflected value never yields the placeholder |
| Applicants.LaterNotPlaceholder | cio/src/models.rs:798-807 | a violated value or any tension value never yields the placeholder |
| Applicants.TensionTextStart | cio/src/models.rs:801-807 | tension text starts with " \| in tension: *" |
| Applicants.TwoTensions | cio/src/models.rs:801-807 | two tension values read " \| in tension: *a* *& b*" |
| Applicants.IntroText | cio/src/models.rs:812-816 | the intro starts with the bold name and the mail link |
| Applicants.OptionalLink | cio/src/models.rs:818-847 | a link is shown exactly when its value is set |
| Applicants.ApplicantBlocks | cio/src/models.rs:849-898 | one section then three context blocks, the values block being the placeholder exactly when no value is set |
| Applicants.GithubLinkTarget | cio/src/models.rs:825-831 | the GitHub link points at the user name without its '@' |
| SendGrid.NewEmail | sendgrid/src/lib.rs:402-405 | a new address is empty and unnamed |
| SendGrid.NewContent | sendgrid/src/lib.rs:421-424 | new content has an empty type and value |
| SendGrid.NewPersonalization | sendgrid/src/lib.rs:440-443 | a new personalization has no recipients and no optional part |
| SendGrid.NewAttachment | sendgrid/src/lib.rs:523-526 | a new attachment is empty |
| SendGrid.NewMessage | sendgrid/src/lib.rs:345-348 | a new message has an empty sender and subject and no parts |
| SendGrid.Push | sendgrid/src/lib.rs:368-379 | appending to an optional list; a missing list becomes the one-element list |
| SendGrid.PushPush | sendgrid/src/lib.rs:451-464 | two appends keep the order they were made in |
| SendGrid.Extend | sendgrid/src/lib.rs:481-499 | merging into an optional map keeps the old keys and adds the new, the new values winning |
| SendGrid.ExtendExtend | sendgrid/src/lib.rs:481-499 | merging twice is merging once with the second batch over the first |
| SendGrid.SetFrom | sendgrid/src/lib.rs:350-353 | sets the sender and changes nothing else |
| SendGrid.SetSubject | sendgrid/src/lib.rs:356-359 | sets the subject and changes nothing else |
| SendGrid.SetTemplateId | sendgrid/src/lib.rs:362-365 | sets the template id and changes nothing else |
| SendGrid.AddContent | sendgrid/src/lib.rs:368-379 | appends the content and changes nothing else |
| SendGrid.AddPersonalization | sendgrid/src/lib.rs:381-385 | appends the personalization at the end and changes nothing else |
| SendGrid.AddAttachment | sendgrid/src/lib.rs:387-398 | appends the attachment and changes nothing else |
| SendGrid.SetEmail | sendgrid/src/lib.rs:407-410 | sets the address and keeps the name |
| SendGrid.SetName | sendgrid/src/lib.rs:413-416 | sets the name and keeps the address |
| SendGrid.SetContentType | sendgrid/src/lib.rs:426-429 | sets the type and keeps the value |
| SendGrid.SetValue | sendgrid/src/lib.rs:432-435 | sets the value and keeps the type |
| SendGrid.AddTo | sendgrid/src/lib.rs:445-448 | appends a recipient and changes nothing else |
| SendGrid.AddCc | sendgrid/src/lib.rs:451-464 | appends a copy recipient and changes nothing else |
| SendGrid.AddBcc | sendgrid/src/lib.rs:466-479 | appends a blind-copy recipient and changes nothing else |
| SendGrid.AddHeaders | sendgrid/src/lib.rs:481-499 | merges headers, new values winning, and changes nothing else |
| SendGrid.AddDynamicTemplateData | sendgrid/src/lib.rs:501-519 | merges template data, new values winning, and changes nothing else |
| SendGrid.SetBase64Content | sendgrid/src/lib.rs:534-537 | sets the content and changes nothing else |
| SendGrid.SetFilename | sendgrid/src/lib.rs:540-543 | sets the file name and changes nothing else |
| SendGrid.SetMimeType | sendgrid/src/lib.rs:547-550 | sets the MIME type and changes nothing else |
| SendGrid.SetSubjectTwice | sendgrid/src/lib.rs:356-359 | setting the subject twice keeps the second |
| SendGrid.SetEmailNameCommute | sendgrid/src/lib.rs:407-416 | the address and the name are set independently, in either order |
| SendGrid.AddToCcCommute | sendgrid/src/lib.rs:445-464 | adding to the recipients and to the copy list commute |
| SendGrid.BuildRequest | sendgrid/src/lib.rs:58-100 | fails exactly when the bearer header is invalid; otherwise the URL is the endpoint joined with the path, the headers are the bearer token and JSON, and there is a body exactly for methods other than GET and DELETE |
| SendGrid.BearerValidIffKeyValid | sendgrid/src/lib.rs:71-72 | the bearer header is valid exactly when the key is |
| SendGrid.NewlineKeyRejected | sendgrid/src/lib.rs:71-72 | a key holding a line break is never sent |
| SendGrid.SendMail | sendgrid/src/lib.rs:103-113 | succeeds exactly for a valid key and a 202 response, posting the message to `mail/send`; otherwise it reports which step failed |
| SendGrid.NewUserMessage | sendgrid/src/lib.rs:115-149 | from admin to the recovery address, copying jess, with the new account in the subject |
| SendGrid.ReceivedApplicationMessage | sendgrid/src/lib.rs:151-178 | from careers to the applicant under their name, copying careers |
| SendGrid.PlainMessage | sendgrid/src/lib.rs:180-197 | from the sender to the recipient, with no copies |
| SendGrid.ZoomDumpMessage | sendgrid/src/lib.rs:199-226 | from drive to jess, copying drive, with the Drive link in the body |
| SendGrid.NewApplicantNotification | sendgrid/src/lib.rs:228-255 | from applications to all, with the applicant's name in the subject |

## Left out

- JSON: `serde_json` of a paper (cio/src/journal_clubs.rs:95, cio/src/models.rs:1319) is replaced by a length-prefixed text encoding. The model keeps the one property the program relies on: decoding returns exactly the paper that was encoded. A foreign JSON text that cio would read is not modelled.
- `to_lowercase` is modelled for ASCII letters only. Unicode case mapping is out of scope.
- The `phonenumber` crate's parse and international formatting (cio/src/models.rs:435-446) are left out: it is a foreign library with its own metadata. The stored phone is the cleaned phone before formatting.
- The questionnaire answers parsed by regular expressions out of Drive file contents (`get_file_contents` and `parse_question`, cio/src/models.rs:451-616) are left out. Both are I/O and regex matching.
- chrono's `%m/%d/%Y %H:%M:%S  %:z` timestamp parse is a parameter `parseTime` of `Applicants.Parse`.
- The "applied ... ago" text of the Slack message is a parameter `appliedAgo`. It comes from the wall clock and `chrono_humanize`.
- `ApplicantSheetColumns::new` is not part of this model; its column indices are an input.
- Writing "TRUE" into the sent-email cell and sending the application-received email are not performed. `Applicants.Parse` returns the cell to mark on a parsed row. `Applicants.ParseEffects` states what cio has already sent and marked on every path, including a row that panics on a later cell.
- Database, Airtable and GitHub calls are left out. They are represented by the operations the refreshes would issue and by the records they would read, which are passed in. This covers `get_meetings_from_repo` (cio/src/journal_clubs.rs:113-129) and the RFD contents read from GitHub after `rfd_dir` (cio/src/models.rs:1908 on).
- The HTTP exchange of `SendGrid::request` is left out. `BuildRequest` returns the request it would issue, and the response status is an input of `SendMail`. `Url::join` is modelled as appending the path to the endpoint, which is what it does for the relative paths used here.
- `SendGrid::new`, `new_from_env` and `get_key` are left out: they read the environment.
- `Attachment::set_content` (base64 encoding of bytes) is left out; `set_base64_content` is modelled.
- `send_at` is an unbounded natural instead of a `u64`, since nothing computes with it.
- Logging (`println!`) is left out.
- The `unwrap`s on Airtable record fields, `serde_json::from_value(record.fields.clone())` (cio/src/journal_clubs.rs:169, 232, 250), are left out. Records are passed in already decoded as `JournalClubs.Record`.
- The `unwrap` of `String::deserialize` in the date deserializer (cio/src/journal_clubs.rs:83) is left out. `MeetingDates.Deserialize` takes the string.
- `serde_json::to_string_pretty(..).unwrap()` of a paper (cio/src/journal_clubs.rs:95) is left out, because it cannot fail on a record of strings.
- The `unwrap`s of `Url::parse` and `join` on the fixed endpoint (sendgrid/src/lib.rs:68-69) and of `RequestBuilder::build` (lib.rs:97) are left out, because the URL is fixed and the paths are constant.
- The `unwrap`s on network, database, repository and environment results are left out with the calls themselves. These are cio/src/journal_clubs.rs:122, 126, 161, 199, 224, 244, 287, cio/src/models.rs:286-289, 1916-1917 and sendgrid/src/lib.rs:47-48, 108.
- JournalClubs.PlanMeetings and JournalClubs.PlanPapers count updates in an unbounded natural, while the `updated` counters (cio/src/journal_clubs.rs:178, 260) are `i32`; no realistic table holds 2^31 records, so the wrap-around is not modelled.
- SendGrid.HttpMethod has only GET, POST, PUT, PATCH and DELETE, the methods the client uses; reqwest's `Method` also has HEAD, OPTIONS, CONNECT, TRACE and extension methods, for which `request` would attach a body too.
- SendGrid.NewUserMessage and the other composers state the recipient, copy lists and subject, but not the full body text of each email beyond what is passed in.

=== FILE: applicants.dfy ===
/** Normalisation of one applicant row of the hiring spreadsheet
    (`NewApplicant::parse`) and the Slack message an applicant is shown as
    (`NewApplicant::as_slack_msg`). */
module Applicants {
  import opened Wrappers
  import opened Strings
  import opened Decimal
  import opened Slack

  // ---------------------------------------------------------------------------
  // First-match rule chains

  /** One arm of an `if .. else if` chain: it fires when the lower-cased text contains
      any of its keywords and the phone starts with its prefix ("" for arms that do
      not look at the phone). */
  datatype Rule<T> = Rule(keywords: seq<string>, phonePrefix: string, result: T)

  predicate Fires<T>(rule: Rule<T>, text: string, phone: string) {
    && (exists j :: 0 <= j < |rule.keywords| && Contains(text, rule.keywords[j]))
    && StartsWith(phone, rule.phonePrefix)
  }

  /** The result of the first rule that fires, or `default` when none does. */
  function FirstMatch<T>(rules: seq<Rule<T>>, text: string, phone: string, default: T): T {
    if rules == [] then default
    else if Fires(rules[0], text, phone) then rules[0].result
    else FirstMatch(rules[1..], text, phone, default)
  }

  /** The chain picks rule `k` when it fires and no earlier rule does. */
  lemma {:induction false} FirstMatchAt<T>(rules: seq<Rule<T>>, text: string, phone: string, default: T, k: int)
    requires 0 <= k < |rules| && Fires(rules[k], text, phone)
    requires forall j :: 0 <= j < k ==> !Fires(rules[j], text, phone)
    ensures FirstMatch(rules, text, phone, default) == rules[k].result
  {
    if k > 0 {
      assert !Fires(rules[0], text, phone);
      assert forall j :: 0 <= j < k - 1 ==> rules[1..][j] == rules[j + 1];
      FirstMatchAt(rules[1..], text, phone, default, k - 1);
    }
  }

  /** When no rule fires the chain falls through to the default. */
  lemma {:induction false} FirstMatchNone<T>(rules: seq<Rule<T>>, text: string, phone: string, default: T)
    requires forall j :: 0 <= j < |rules| ==> !Fires(rules[j], text, phone)
    ensures FirstMatch(rules, text, phone, default) == default
  {
    if rules != [] {
      assert !Fires(rules[0], text, phone);
      assert forall j :: 0 <= j < |rules| - 1 ==> rules[1..][j] == rules[j + 1];
      FirstMatchNone(rules[1..], text, phone, default);
    }
  }

  /** Whatever the input, the chain yields the default or one of its rules' results. */
  lemma {:induction false} FirstMatchResult<T>(rules: seq<Rule<T>>, text: string, phone: string, default: T)
    ensures var r := FirstMatch(rules, text, phone, default);
      r == default || exists k :: 0 <= k < |rules| && r == rules[k].result
  {
    if rules != [] && !Fires(rules[0], text, phone) {
      FirstMatchResult(rules[1..], text, phone, default);
      var r := FirstMatch(rules, text, phone, default);
      if r != default {
        var k :| 0 <= k < |rules| - 1 && r == rules[1..][k].result;
        assert r == rules[k + 1].result;
      }
    }
  }

  /** A result no rule carries can only come from the default. */
  lemma {:induction false} FirstMatchAvoids<T>(rules: seq<Rule<T>>, text: string, phone: string, default: T, x: T)
    requires default != x
    requires forall k :: 0 <= k < |rules| ==> rules[k].result != x
    ensures FirstMatch(rules, text, phone, default) != x
  {
    if rules != [] {
      assert forall k :: 0 <= k < |rules| - 1 ==> rules[1..][k] == rules[k + 1];
      FirstMatchAvoids(rules[1..], text, phone, default, x);
    }
  }

  // ---------------------------------------------------------------------------
  // Row cells

  /** `ApplicantSheetColumns`: the index of each column in the role's sheet. */
  datatype Columns = Columns(
    timestamp: nat,
    name: nat,
    email: nat,
    location: nat,
    phone: nat,
    github: nat,
    resume: nat,
    materials: nat,
    status: nat,
    sentEmailReceived: nat,
    valueReflected: nat,
    valueViolated: nat,
    valueInTension1: nat,
    valueInTension2: nat,
    linkedin: nat,
    portfolio: nat,
    website: nat)

  /** Why a row cannot be read; each one is a panic in cio. */
  datatype ParseError =
    | RowTooShort(column: nat)    // `row[column]` out of bounds
    | BadTimestamp                // the timestamp did not parse
    | NoColumnLetter(column: nat) // the column has no single-letter name

  /** `row[col]`, which panics on a short row. */
  function Cell(row: seq<string>, col: nat): (r: Result<string, ParseError>)
    ensures r.Ok? <==> col < |row|
    ensures r.Ok? ==> r.value == row[col]
    ensures r.Err? ==> r.error == RowTooShort(col)
  {
    if col < |row| then Ok(row[col]) else Err(RowTooShort(col))
  }

  /** An optional column is read only when it is configured (index not 0) and the row
      reaches it. */
  predicate Present(row: seq<string>, col: nat) {
    |row| > col && col != 0
  }

  /** linkedin, portfolio, website, value_reflected and value_violated: the trimmed,
      lower-cased cell, or "" when the column is absent. */
  function OptionalCell(row: seq<string>, col: nat): (r: string)
    ensures !Present(row, col) ==> r == ""
    ensures Present(row, col) ==> r == Lower(Trim(row[col]))
  {
    if Present(row, col) then Lower(Trim(row[col])) else ""
  }

  /** The values in tension: the first tension column's value, then the second's,
      each only when its column is present. */
  function TensionValues(row: seq<string>, cols: Columns): (r: seq<string>)
    ensures |r| == (if Present(row, cols.valueInTension1) then 1 else 0) + (if Present(row, cols.valueInTension2) then 1 else 0)
    ensures Present(row, cols.valueInTension1) ==> r[0] == OptionalCell(row, cols.valueInTension1)
    ensures Present(row, cols.valueInTension2) ==> r[|r| - 1] == OptionalCell(row, cols.valueInTension2)
  {
    var first := OptionalCell(row, cols.valueInTension1);
    var second := OptionalCell(row, cols.valueInTension2);
    if Present(row, cols.valueInTension1) then
      if Present(row, cols.valueInTension2) then [first, second] else [first]
    else
      if Present(row, cols.valueInTension2) then [second] else []
  }

  // ---------------------------------------------------------------------------
  // Status

  const NextSteps := "Next steps"
  const NeedsTriage := "Needs to be triaged"

  /** The statuses the chain can produce, in the order cio tests them. */
  const StatusRules: seq<Rule<string>> := [
    Rule(["next steps"], "", NextSteps),
    Rule(["deferred"], "", "Deferred"),
    Rule(["declined"], "", "Declined"),
    Rule(["hired"], "", "Hired"),
    Rule(["contractor", "consulting"], "", "Consulting"),
    Rule(["keeping warm"], "", "Keeping warm")
  ]

  const Statuses: set<string> := {NextSteps, "Deferred", "Declined", "Hired", "Consulting", "Keeping warm", NeedsTriage}

  /** The canonical status of a status cell: the first keyword the trimmed,
      lower-cased cell contains decides it. */
  function CanonicalStatus(cell: string): string {
    FirstMatch(StatusRules, Lower(Trim(cell)), "", NeedsTriage)
  }

  /** The status of a row; a row too short to have the status column needs triage. */
  function RowStatus(row: seq<string>, col: nat): (r: string)
    ensures r in Statuses
    ensures col >= |row| ==> r == NeedsTriage
    ensures col < |row| ==> r == CanonicalStatus(row[col])
  {
    if |row| > col then
      var s := CanonicalStatus(row[col]);
      FirstMatchResult(StatusRules, Lower(Trim(row[col])), "", NeedsTriage);
      s
    else NeedsTriage
  }

  /** A cell mentioning "next steps" is "Next steps", whatever else it says. */
  lemma NextStepsWins(cell: string)
    requires Contains(Lower(Trim(cell)), "next steps")
    ensures CanonicalStatus(cell) == NextSteps
  {
    assert Fires(StatusRules[0], Lower(Trim(cell)), "") by {
      assert StatusRules[0].keywords[0] == "next steps";
      assert StartsWith("", "");
    }
    FirstMatchAt(StatusRules, Lower(Trim(cell)), "", NeedsTriage, 0);
  }

  /** A cell containing none of the keywords needs triage. */
  lemma UnknownStatusNeedsTriage(cell: string)
    requires forall k, j :: 0 <= k < |StatusRules| && 0 <= j < |StatusRules[k].keywords| ==>
      !Contains(Lower(Trim(cell)), StatusRules[k].keywords[j])
    ensures CanonicalStatus(cell) == NeedsTriage
  {
    FirstMatchNone(StatusRules, Lower(Trim(cell)), "", NeedsTriage);
  }

  // ---------------------------------------------------------------------------
  // Sent-email flag and the cell that records it

  /** The application-received email counts as sent unless the cell says "false". */
  function SentEmailReceived(cell: string): (r: bool)
    ensures !r <==> exists i :: OccursAt(Lower(cell), i, "false")
  {
    ContainsAt(Lower(cell), "false");
    !Contains(Lower(cell), "false")
  }

  /** The spreadsheet's letter for a column: `"ABC..Z".chars().nth(col)`, which only
      names the first 26 columns. */
  function ColumnLetter(col: nat): (r: Option<char>)
    ensures r.Some? <==> col < 26
    ensures r.Some? ==> 'A' <= r.value <= 'Z' && r.value as int - 'A' as int == col
  {
    if col < 26 then Some(('A' as int + col) as char) else None
  }

  /** The A1 name of the sent-email cell of the row at `rowIndex` (0-based, so the
      sheet row is one more). */
  function SentEmailCell(col: nat, rowIndex: nat): (r: Result<string, ParseError>)
    ensures r.Err? <==> col >= 26
    ensures r.Err? ==> r.error == NoColumnLetter(col)
    ensures r.Ok? ==> |r.value| >= 2 && r.value[0] as int - 'A' as int == col
    ensures r.Ok? ==> AllDigits(r.value[1..]) && Value(r.value[1..]) == rowIndex + 1
  {
    match ColumnLetter(col)
    case None => Err(NoColumnLetter(col))
    case Some(letter) =>
      var s := [letter] + NatToString(rowIndex + 1);
      assert s[1..] == NatToString(rowIndex + 1);
      Ok(s)
  }

  // ---------------------------------------------------------------------------
  // GitHub and GitLab handles

  /** A GitHub cell with the known profile-URL prefixes and any '@' stripped from
      the front. */
  function GithubPath(t: string): string {
    var a := TrimStartMatches(t, "https://github.com/");
    var b := TrimStartMatches(a, "http://github.com/");
    var c := TrimStartMatches(b, "https://www.github.com/");
    TrimStartMatches(c, "@")
  }

  function GitlabPath(t: string): string {
    TrimStartMatches(TrimStartMatches(t, "https://gitlab.com/"), "@")
  }

  /** "@" + the path without its trailing '/'s: starts with '@' and never ends in '/'. */
  function Handle(path: string): (r: string)
    ensures r != [] && r[0] == '@' && r[|r| - 1] != '/'
  {
    "@" + TrimEndChar(path, '/')
  }

  /** The `(github, gitlab)` handles of a GitHub cell. A GitLab URL typed into the
      GitHub column becomes the GitLab handle instead. */
  function Handles(cell: string): (r: (string, string))
    ensures Trim(cell) == "" ==> r == ("", "")
    ensures r.0 == "" || r.1 == ""
    ensures r.0 != "" ==> r.0[0] == '@' && r.0[|r.0| - 1] != '/'
    ensures r.1 != "" ==> r.1[0] == '@' && r.1[|r.1| - 1] != '/'
    ensures Trim(cell) != "" ==> (r.1 != "" <==> Contains(Handle(GithubPath(Lower(Trim(cell)))), "https://gitlab.com"))
  {
    if Trim(cell) == "" then ("", "")
    else
      var t := Lower(Trim(cell));
      var github := Handle(GithubPath(t));
      if Contains(github, "https://gitlab.com") then ("", Handle(GitlabPath(t))) else (github, "")
  }

  /** A blank cell (all whitespace) gives neither handle. */
  lemma BlankCellNoHandles(cell: string)
    requires AllWhitespace(cell)
    ensures Handles(cell) == ("", "")
  {
    TrimEmptyIffBlank(cell);
  }

  /** A character that a pattern contains is in every text that contains the pattern. */
  lemma ContainsChar(s: string, p: string, c: char)
    requires Contains(s, p) && c in p
    ensures c in s
  {
    ContainsAt(s, p);
    var i :| OccursAt(s, i, p);
    var k :| 0 <= k < |p| && p[k] == c;
    assert s[i..i + |p|][k] == s[i + k];
  }

  /** A plain user name: lower case, no '/', no whitespace, not starting with '@'. */
  predicate PlainUser(u: string) {
    && u != []
    && u[0] != '@'
    && (forall i :: 0 <= i < |u| ==> u[i] != '/' && !IsWhitespace(u[i]) && !('A' <= u[i] <= 'Z'))
  }

  lemma {:induction false} LowerOfLower(s: string)
    requires NoUpper(s)
    ensures Lower(s) == s
  {
  }

  /** The profile URL of a user, with or without a trailing '/'. */
  function ProfileUrl(u: string, slash: bool): string {
    "https://github.com/" + u + (if slash then "/" else "")
  }

  /** A text whose character at `k` is not '/' does not start with a pattern that has
      '/' there. */
  lemma NotStartsWithAt(s: string, p: string, k: nat)
    requires k < |p| && p[k] == '/' && (k < |s| ==> s[k] != '/')
    ensures !StartsWith(s, p)
  {
    if |p| <= |s| {
      assert s[..|p|][k] == s[k];
      assert s[..|p|] != p;
    }
  }

  /** A profile URL is already trimmed and lower case. */
  lemma ProfileUrlNormal(u: string, slash: bool)
    requires PlainUser(u)
    ensures Lower(Trim(ProfileUrl(u, slash))) == ProfileUrl(u, slash)
  {
    SiteUrlNormal("https://github.com/", u, slash);
  }

  /** A site prefix starting with a letter, then a plain user and an optional '/', is
      already trimmed and lower case. */
  lemma SiteUrlNormal(site: string, u: string, slash: bool)
    requires site != [] && site[0] == 'h' && NoUpper(site)
    requires PlainUser(u)
    ensures Lower(Trim(site + u + (if slash then "/" else ""))) == site + u + (if slash then "/" else "")
  {
    var url := site + u + (if slash then "/" else "");
    assert Trim(url) == url by {
      assert url[0] == 'h';
      assert url[|url| - 1] == if slash then '/' else u[|u| - 1];
      TrimUntouched(url);
    }
    assert Lower(url) == url by {
      assert NoUpper(site + u) by {
        NoUpperConcat(site, u);
      }
      NoUpperConcat(site + u, if slash then "/" else "");
      LowerOfLower(url);
    }
  }

  predicate NoUpper(s: string) {
    forall i :: 0 <= i < |s| ==> !('A' <= s[i] <= 'Z')
  }

  lemma NoUpperConcat(a: string, b: string)
    requires NoUpper(a) && NoUpper(b)
    ensures NoUpper(a + b)
  {
    assert forall i :: |a| <= i < |a + b| ==> (a + b)[i] == b[i - |a|];
  }

  /** Stripping the prefixes from a profile URL leaves the user and the optional '/'. */
  lemma ProfileUrlPath(u: string, slash: bool)
    requires PlainUser(u)
    ensures GithubPath(ProfileUrl(u, slash)) == u + (if slash then "/" else "")
  {
    var rest := u + (if slash then "/" else "");
    assert TrimStartMatches(ProfileUrl(u, slash), "https://github.com/") == rest by {
      RestOfProfileUrl(u, slash);
    }
    assert !StartsWith(rest, "http://github.com/") by {
      assert forall k :: 0 <= k < |rest| && k < |u| ==> rest[k] == u[k];
      NotStartsWithAt(rest, "http://github.com/", if |u| > 5 then 5 else 17);
    }
    assert !StartsWith(rest, "https://www.github.com/") by {
      assert forall k :: 0 <= k < |rest| && k < |u| ==> rest[k] == u[k];
      NotStartsWithAt(rest, "https://www.github.com/", if |u| > 6 then 6 else 22);
    }
    assert !StartsWith(rest, "@") by {
      assert rest[0] == u[0];
    }
    GithubPathOf(ProfileUrl(u, slash), rest);
  }

  /** A text whose first strip leaves `rest`, and `rest` starts with none of the later
      prefixes, has `rest` as its GitHub path. */
  lemma GithubPathOf(t: string, rest: string)
    requires TrimStartMatches(t, "https://github.com/") == rest
    requires !StartsWith(rest, "http://github.com/") && !StartsWith(rest, "https://www.github.com/")
    requires !StartsWith(rest, "@")
    ensures GithubPath(t) == rest
  {
  }

  /** The "https://github.com/" prefix is stripped once, leaving the rest intact. */
  lemma RestOfProfileUrl(u: string, slash: bool)
    requires PlainUser(u)
    ensures TrimStartMatches(ProfileUrl(u, slash), "https://github.com/") == u + (if slash then "/" else "")
  {
    var prefix := "https://github.com/";
    var rest := u + (if slash then "/" else "");
    var url := ProfileUrl(u, slash);
    assert url == prefix + rest;
    assert url[..|prefix|] == prefix && url[|prefix|..] == rest;
    assert forall k :: 0 <= k < |rest| && k < |u| ==> rest[k] == u[k];
    NotStartsWithAt(rest, prefix, if |u| > 6 then 6 else 18);
  }

  /** A handle built from a user without '/' cannot hold a GitLab URL. */
  lemma PlainHandleNotGitlab(u: string)
    requires PlainUser(u)
    ensures !Contains("@" + u, "https://gitlab.com")
  {
    var h := "@" + u;
    assert '/' !in h by {
      assert forall i :: 1 <= i < |h| ==> h[i] == u[i - 1];
    }
    assert '/' in "https://gitlab.com" by {
      assert "https://gitlab.com"[6] == '/';
    }
    if Contains(h, "https://gitlab.com") {
      ContainsChar(h, "https://gitlab.com", '/');
      assert false;
    }
  }

  lemma TrimUserSlash(u: string, slash: bool)
    requires PlainUser(u)
    ensures TrimEndChar(u + (if slash then "/" else ""), '/') == u
  {
    var rest := u + (if slash then "/" else "");
    assert u[|u| - 1] != '/';
    if slash {
      assert rest[|rest| - 1] == '/';
      assert rest[..|rest| - 1] == u;
      assert TrimEndChar(rest, '/') == TrimEndChar(u, '/');
    } else {
      assert rest == u;
    }
  }

  /** A cell whose GitHub handle `h` does not look like a GitLab URL gives only that
      handle. */
  lemma GithubOnly(cell: string, h: string)
    requires Lower(Trim(cell)) != ""
    requires Handle(GithubPath(Lower(Trim(cell)))) == h
    requires !Contains(h, "https://gitlab.com")
    ensures Handles(cell) == (h, "")
  {
  }

  /** The profile URL of a user, with or without a trailing '/', gives back the GitHub
      handle "@" + user and no GitLab handle. */
  lemma GithubProfileHandle(u: string, slash: bool)
    requires PlainUser(u)
    ensures Handles(ProfileUrl(u, slash)) == ("@" + u, "")
  {
    var url := ProfileUrl(u, slash);
    var h := "@" + u;
    assert Lower(Trim(url)) == url by {
      ProfileUrlNormal(u, slash);
    }
    assert Handle(GithubPath(url)) == h by {
      ProfileUrlPath(u, slash);
      TrimUserSlash(u, slash);
    }
    assert !Contains(h, "https://gitlab.com") by {
      PlainHandleNotGitlab(u);
    }
    GithubOnly(url, h);
  }

  /** The GitLab profile URL of a user, with or without a trailing '/'. */
  function GitlabUrl(u: string, slash: bool): string {
    "https://gitlab.com/" + u + (if slash then "/" else "")
  }

  /** A text that differs from a pattern at `k` does not start with it. */
  lemma NotStartsWithDiffering(s: string, p: string, k: nat)
    requires k < |p| && k < |s| && s[k] != p[k]
    ensures !StartsWith(s, p)
  {
    if |p| <= |s| {
      assert s[..|p|][k] == s[k];
    }
  }

  /** None of the GitHub prefixes is stripped from a GitLab URL. */
  lemma GitlabUrlGithubPath(u: string, slash: bool)
    requires PlainUser(u)
    ensures GithubPath(GitlabUrl(u, slash)) == GitlabUrl(u, slash)
  {
    var url := GitlabUrl(u, slash);
    assert url[..19] == "https://gitlab.com/";
    NotStartsWithDiffering(url, "https://github.com/", 11);
    NotStartsWithDiffering(url, "http://github.com/", 4);
    NotStartsWithDiffering(url, "https://www.github.com/", 8);
    NotStartsWithDiffering(url, "@", 0);
  }

  /** The handle built from a GitLab URL holds "https://gitlab.com" right after '@'. */
  lemma GitlabUrlHandle(u: string, slash: bool)
    requires PlainUser(u)
    ensures Contains(Handle(GitlabUrl(u, slash)), "https://gitlab.com")
  {
    var url := GitlabUrl(u, slash);
    var r := TrimEndChar(url, '/');
    var h := Handle(url);
    var p := "https://gitlab.com";
    assert url[18 + |u|] == u[|u| - 1] != '/';
    assert |r| > 18 + |u|;
    assert h[1..1 + |p|] == r[..|p|] == url[..|p|] == p;
    assert OccursAt(h, 1, p);
    ContainsAt(h, p);
  }

  /** Stripping the GitLab prefixes from a GitLab URL leaves the user and the optional
      '/'. */
  lemma GitlabUrlPath(u: string, slash: bool)
    requires PlainUser(u)
    ensures GitlabPath(GitlabUrl(u, slash)) == u + (if slash then "/" else "")
  {
    var prefix := "https://gitlab.com/";
    var rest := u + (if slash then "/" else "");
    var url := GitlabUrl(u, slash);
    assert url == prefix + rest;
    assert url[..|prefix|] == prefix && url[|prefix|..] == rest;
    assert forall k :: 0 <= k < |rest| && k < |u| ==> rest[k] == u[k];
    NotStartsWithAt(rest, prefix, if |u| > 6 then 6 else 18);
    assert TrimStartMatches(url, prefix) == rest;
    assert !StartsWith(rest, "@") by {
      assert rest[0] == u[0];
    }
  }

  /** A GitLab profile URL typed into the GitHub column, with or without a trailing
      '/', gives no GitHub handle and the GitLab handle "@" + user. */
  lemma GitlabProfileHandle(u: string, slash: bool)
    requires PlainUser(u)
    ensures Handles(GitlabUrl(u, slash)) == ("", "@" + u)
  {
    var url := GitlabUrl(u, slash);
    assert Lower(Trim(url)) == url by {
      SiteUrlNormal("https://gitlab.com/", u, slash);
    }
    assert Trim(url) != "";
    assert Contains(Handle(GithubPath(url)), "https://gitlab.com") by {
      GitlabUrlGithubPath(u, slash);
      GitlabUrlHandle(u, slash);
    }
    assert Handle(GitlabPath(url)) == "@" + u by {
      GitlabUrlPath(u, slash);
      TrimUserSlash(u, slash);
    }
  }

  // ---------------------------------------------------------------------------
  // Phone and country

  const PhonePunctuation: set<char> := {' ', '-', '+', '(', ')'}

  /** The trimmed phone cell with spaces, dashes, pluses and parentheses removed. */
  function CleanPhone(cell: string): (r: string)
    ensures forall c :: c in r <==> c in Trim(cell) && c !in PhonePunctuation
  {
    var t := Trim(cell);
    var s1 := RemoveChar(t, ' ');
    var s2 := RemoveChar(s1, '-');
    var s3 := RemoveChar(s2, '+');
    var s4 := RemoveChar(s3, '(');
    RemoveChar(s4, ')')
  }

  /** Removing one character is filtering by the set holding only it. */
  lemma {:induction false} RemoveCharIsFilter(s: string, c: char)
    ensures RemoveChar(s, c) == Filter(s, {c})
  {
    if |s| > 0 {
      RemoveCharIsFilter(s[1..], c);
    }
  }

  /** Filtering twice is filtering once by both sets. */
  lemma {:induction false} FilterFilter(s: string, a: set<char>, b: set<char>)
    ensures Filter(Filter(s, a), b) == Filter(s, a + b)
  {
    if |s| > 0 {
      FilterFilter(s[1..], a, b);
      if s[0] in a {
        assert Filter(s, a) == Filter(s[1..], a);
      } else {
        var x := Filter(s, a);
        assert x == [s[0]] + Filter(s[1..], a);
        assert x[0] == s[0] && x[1..] == Filter(s[1..], a);
        assert Filter(x, b) == (if s[0] in b then [] else [s[0]]) + Filter(x[1..], b);
      }
    }
  }

  /** The cleaning keeps exactly the characters of the trimmed cell that are not
      punctuation, in order. */
  lemma CleanPhoneIsFilter(cell: string)
    ensures CleanPhone(cell) == Filter(Trim(cell), PhonePunctuation)
  {
    var t := Trim(cell);
    RemoveCharIsFilter(t, ' ');
    RemoveCharIsFilter(Filter(t, {' '}), '-');
    FilterFilter(t, {' '}, {'-'});
    RemoveCharIsFilter(Filter(t, {' ', '-'}), '+');
    FilterFilter(t, {' ', '-'}, {'+'});
    RemoveCharIsFilter(Filter(t, {' ', '-', '+'}), '(');
    FilterFilter(t, {' ', '-', '+'}, {'('});
    RemoveCharIsFilter(Filter(t, {' ', '-', '+', '('}), ')');
    FilterFilter(t, {' ', '-', '+', '('}, {')'});
    assert {' '} + {'-'} == {' ', '-'};
    assert {' ', '-'} + {'+'} == {' ', '-', '+'};
    assert {' ', '-', '+'} + {'('} == {' ', '-', '+', '('};
    assert {' ', '-', '+', '('} + {')'} == PhonePunctuation;
  }

  /** The countries the location chain can name (`phonenumber::country::Id`). */
  datatype Country =
    | US | GB | CZ | TR | SE | IN | BR | BE | RO | NG | AT | AU | LK | SI
    | FR | NL | TW | NZ | IT | KE | AE | PL | PT | DE | BJ | IL | ES

  /** The ISO 3166 alpha-2 id of a country, as the metadata database spells it. */
  function IsoId(c: Country): string {
    match c
    case US => "US" case GB => "GB" case CZ => "CZ" case TR => "TR" case SE => "SE"
    case IN => "IN" case BR => "BR" case BE => "BE" case RO => "RO" case NG => "NG"
    case AT => "AT" case AU => "AU" case LK => "LK" case SI => "SI" case FR => "FR"
    case NL => "NL" case TW => "TW" case NZ => "NZ" case IT => "IT" case KE => "KE"
    case AE => "AE" case PL => "PL" case PT => "PT" case DE => "DE" case BJ => "BJ"
    case IL => "IL" case ES => "ES"
  }

  /** The stored `country_code`: the id lower-cased. */
  function CountryCode(c: Country): (r: string)
    ensures |r| == 2
    ensures forall i :: 0 <= i < 2 ==> 'a' <= r[i] <= 'z'
  {
    Lower(IsoId(c))
  }

  /** The location/phone chain, arm by arm in cio's order. */
  const CountryRules: seq<Rule<Country>> := [
    Rule(["uk", "london", "ipswich", "united kingdom", "england"], "44", GB),
    Rule(["czech republic", "prague"], "420", CZ),
    Rule(["turkey"], "90", TR),
    Rule(["sweden"], "46", SE),
    Rule(["mumbai", "india", "bangalore"], "91", IN),
    Rule(["brazil"], "", BR),
    Rule(["belgium"], "", BE),
    Rule(["romania"], "40", RO),
    Rule(["nigeria"], "", NG),
    Rule(["austria"], "", AT),
    Rule(["australia"], "61", AU),
    Rule(["sri lanka"], "94", LK),
    Rule(["slovenia"], "386", SI),
    Rule(["france"], "33", FR),
    Rule(["netherlands"], "31", NL),
    Rule(["taiwan"], "", TW),
    Rule(["new zealand"], "", NZ),
    Rule(["maragno", "italy"], "", IT),
    Rule(["nairobi", "kenya"], "", KE),
    Rule(["dubai"], "", AE),
    Rule(["poland"], "", PL),
    Rule(["portugal"], "", PT),
    Rule(["berlin", "germany"], "", DE),
    Rule(["benin"], "229", BJ),
    Rule(["israel"], "", IL),
    Rule(["spain"], "", ES)
  ]

  /** The country guessed from the (trimmed) location and the cleaned phone; US
      unless an arm of the chain fires. */
  function GuessCountry(location: string, phone: string): Country {
    FirstMatch(CountryRules, Lower(location), phone, US)
  }

  /** A United Kingdom location with a "44" phone is GB, the chain's first arm. */
  lemma UnitedKingdomPhone(location: string, phone: string, j: int)
    requires 0 <= j < 5 && Contains(Lower(location), CountryRules[0].keywords[j])
    requires StartsWith(phone, "44")
    ensures GuessCountry(location, phone) == GB
  {
    FirstMatchAt(CountryRules, Lower(location), phone, US, 0);
  }

  /** A UK keyword alone does not make GB: without the "44" prefix the first arm is
      skipped, and no other arm names GB. */
  lemma UnitedKingdomNeedsPrefix(location: string, phone: string)
    requires !StartsWith(phone, "44")
    ensures GuessCountry(location, phone) != GB
  {
    var text := Lower(location);
    assert !Fires(CountryRules[0], text, phone);
    var later := CountryRules[1..];
    assert forall k :: 0 <= k < |later| ==> later[k].result != GB;
    FirstMatchAvoids(later, text, phone, US, GB);
  }

  /** A "44" phone alone does not make GB either: without a UK keyword in the location
      the first arm is skipped. */
  lemma UnitedKingdomNeedsKeyword(location: string, phone: string)
    requires forall j :: 0 <= j < 5 ==> !Contains(Lower(location), CountryRules[0].keywords[j])
    ensures GuessCountry(location, phone) != GB
  {
    GuessCountryGbIff(location, phone);
  }

  /** GB is guessed exactly when the chain's first arm fires: a UK keyword in the
      location together with a "44" phone. */
  lemma GuessCountryGbIff(location: string, phone: string)
    ensures GuessCountry(location, phone) == GB <==> Fires(CountryRules[0], Lower(location), phone)
  {
    var text := Lower(location);
    if Fires(CountryRules[0], text, phone) {
      FirstMatchAt(CountryRules, text, phone, US, 0);
    } else {
      var later := CountryRules[1..];
      assert forall k :: 0 <= k < |later| ==> later[k].result != GB;
      FirstMatchAvoids(later, text, phone, US, GB);
    }
  }

  /** A location matching none of the chain's keywords stays US. */
  lemma UnknownLocationIsUS(location: string, phone: string)
    requires forall k, j :: 0 <= k < |CountryRules| && 0 <= j < |CountryRules[k].keywords| ==>
      !Contains(Lower(location), CountryRules[k].keywords[j])
    ensures GuessCountry(location, phone) == US
  {
    FirstMatchNone(CountryRules, Lower(location), phone, US);
  }

  // ---------------------------------------------------------------------------
  // The whole row

  /** `NewApplicant`, without the Drive file contents and the questionnaire answers
      parsed out of them. `submittedTime` is the parsed timestamp, in seconds. */
  datatype Applicant = Applicant(
    submittedTime: int,
    name: string,
    email: string,
    location: string,
    phone: string,
    countryCode: string,
    github: string,
    gitlab: string,
    linkedin: string,
    portfolio: string,
    website: string,
    resume: string,
    materials: string,
    status: string,
    sentEmailReceived: bool,
    role: string,
    sheetId: string,
    valueReflected: string,
    valueViolated: string,
    valuesInTension: seq<string>)

  /** The parsed applicant, whether it is new, and the sheet cell to mark "TRUE" once
      the application-received email has gone out (present exactly for new ones). */
  datatype Parsed = Parsed(applicant: Applicant, isNew: bool, markCell: Option<string>)

  /** `cols[k]` is the first of `cols` past the end of the row. */
  predicate FirstMissing(row: seq<string>, cols: seq<nat>, k: int)
    requires 0 <= k < |cols|
  {
    cols[k] >= |row| && forall j :: 0 <= j < k ==> cols[j] < |row|
  }

  /** The cells at `cols`, read in order; the first column past the end of the row
      is the error. */
  function Cells(row: seq<string>, cols: seq<nat>): (r: Result<seq<string>, ParseError>)
    ensures r.Ok? <==> forall k :: 0 <= k < |cols| ==> cols[k] < |row|
    ensures r.Ok? ==> |r.value| == |cols| && forall k :: 0 <= k < |cols| ==> r.value[k] == row[cols[k]]
    ensures r.Err? ==> exists k :: 0 <= k < |cols| && r.error == RowTooShort(cols[k]) && FirstMissing(row, cols, k)
  {
    if cols == [] then Ok([])
    else if cols[0] >= |row| then Err(RowTooShort(cols[0]))
    else
      match Cells(row, cols[1..])
      case Err(e) =>
        var k :| 0 <= k < |cols[1..]| && e == RowTooShort(cols[1..][k]) && FirstMissing(row, cols[1..], k);
        assert cols[k + 1] == cols[1..][k];
        assert forall j :: 1 <= j < k + 1 ==> cols[j] == cols[1..][j - 1];
        Err(e)
      case Ok(cells) =>
        assert forall k :: 1 <= k < |cols| ==> cols[k] == cols[1..][k - 1];
        Ok([row[cols[0]]] + cells)
  }

  /** The submission time: the timestamp cell with the Pacific offset appended, parsed. */
  function SubmittedTime(parseTime: string -> Option<int>, row: seq<string>, col: nat): (r: Result<int, ParseError>)
    ensures col >= |row| ==> r == Err(RowTooShort(col))
    ensures col < |row| ==> (r.Ok? <==> parseTime(row[col] + " -08:00").Some?)
    ensures col < |row| && r.Ok? ==> parseTime(row[col] + " -08:00") == Some(r.value)
    ensures col < |row| && r.Err? ==> r.error == BadTimestamp
  {
    var timestamp :- Cell(row, col);
    match parseTime(timestamp + " -08:00")
    case None => Err(BadTimestamp)
    case Some(t) => Ok(t)
  }

  /** The cell to mark once the email is sent: none when it was already sent, else the
      sent-email column's cell on this row. */
  function MarkCell(sent: bool, col: nat, rowIndex: nat): (r: Result<Option<string>, ParseError>)
    ensures sent ==> r == Ok(None)
    ensures !sent ==> (r.Ok? <==> col < 26)
    ensures !sent && r.Ok? ==> r.value.Some? && r.value == Some(SentEmailCell(col, rowIndex).value)
    ensures !sent && r.Err? ==> r.error == NoColumnLetter(col)
  {
    if sent then Ok(None)
    else
      var a1 :- SentEmailCell(col, rowIndex);
      Ok(Some(a1))
  }

  /** The columns read after the email without a length check, in reading order:
      github, location, phone, resume, materials, name. */
  function LaterColumns(cols: Columns): seq<nat> {
    [cols.github, cols.location, cols.phone, cols.resume, cols.materials, cols.name]
  }

  /** The applicant assembled from the parsed time, the sent-email and email cells and
      the later cells (`LaterColumns` order). */
  function Build(time: int, sentCell: string, email: string, later: seq<string>,
                 sheetName: string, sheetId: string, cols: Columns, row: seq<string>): (a: Applicant)
    requires |later| == 6
    ensures a.status in Statuses
    ensures a.sentEmailReceived == SentEmailReceived(sentCell)
    ensures a.location == Trim(later[1]) && a.phone == CleanPhone(later[2])
    ensures a.countryCode == CountryCode(GuessCountry(a.location, a.phone))
    ensures (a.github, a.gitlab) == Handles(later[0])
    ensures a.linkedin == OptionalCell(row, cols.linkedin) && a.portfolio == OptionalCell(row, cols.portfolio)
    ensures a.website == OptionalCell(row, cols.website)
    ensures a.valueReflected == OptionalCell(row, cols.valueReflected) && a.valueViolated == OptionalCell(row, cols.valueViolated)
    ensures a.valuesInTension == TensionValues(row, cols) && |a.valuesInTension| <= 2
    ensures a.role == sheetName && a.sheetId == sheetId
    ensures a.submittedTime == time && a.email == email
    ensures a.name == later[5] && a.resume == later[3] && a.materials == later[4]
  {
    var handles := Handles(later[0]);
    var location := Trim(later[1]);
    var phone := CleanPhone(later[2]);
    Applicant(
      time, later[5], email, location, phone, CountryCode(GuessCountry(location, phone)),
      handles.0, handles.1,
      OptionalCell(row, cols.linkedin), OptionalCell(row, cols.portfolio), OptionalCell(row, cols.website),
      later[3], later[4], RowStatus(row, cols.status), SentEmailReceived(sentCell), sheetName, sheetId,
      OptionalCell(row, cols.valueReflected), OptionalCell(row, cols.valueViolated),
      TensionValues(row, cols))
  }

  /** `NewApplicant::parse` for the row at `rowIndex`. `parseTime` stands for chrono's
      `%m/%d/%Y %H:%M:%S  %:z` parser. Each panic of cio is an `Err`: the
      first one met in reading order. */
  function Parse(parseTime: string -> Option<int>, sheetName: string, sheetId: string,
                 cols: Columns, row: seq<string>, rowIndex: nat): (r: Result<Parsed, ParseError>)
    ensures r.Ok? ==> Readable(parseTime, cols, row)
    ensures r.Ok? ==> r.value.isNew == !r.value.applicant.sentEmailReceived
    ensures r.Ok? ==> (r.value.markCell.Some? <==> r.value.isNew)
    ensures r.Ok? ==> r.value.applicant.status in Statuses
  {
    var time :- SubmittedTime(parseTime, row, cols.timestamp);
    var sentCell :- Cell(row, cols.sentEmailReceived);
    var email :- Cell(row, cols.email);
    var sent := SentEmailReceived(sentCell);
    var markCell :- MarkCell(sent, cols.sentEmailReceived, rowIndex);
    LaterCellsOk(row, cols);
    var later :- Cells(row, LaterColumns(cols));
    Ok(Parsed(Build(time, sentCell, email, later, sheetName, sheetId, cols, row), !sent, markCell))
  }

  /** The six later columns are all on the row. */
  predicate LaterOnRow(cols: Columns, row: seq<string>) {
    && cols.github < |row| && cols.location < |row| && cols.phone < |row|
    && cols.resume < |row| && cols.materials < |row| && cols.name < |row|
  }

  /** Reading the later columns succeeds exactly when they are all on the row, and
      then gives their cells in `LaterColumns` order. */
  lemma LaterCellsOk(row: seq<string>, cols: Columns)
    ensures Cells(row, LaterColumns(cols)).Ok? <==> LaterOnRow(cols, row)
    ensures LaterOnRow(cols, row) ==> (Cells(row, LaterColumns(cols)).value
      == [row[cols.github], row[cols.location], row[cols.phone], row[cols.resume], row[cols.materials], row[cols.name]])
  {
    var lc := LaterColumns(cols);
    if Cells(row, lc).Ok? {
      assert lc[0] < |row| && lc[1] < |row| && lc[2] < |row|;
      assert lc[3] < |row| && lc[4] < |row| && lc[5] < |row|;
    }
  }

  /** Every unchecked column is on the row, the timestamp parses, and a new applicant's
      sent-email column has a letter: the conditions under which `parse` does not panic. */
  predicate Readable(parseTime: string -> Option<int>, cols: Columns, row: seq<string>) {
    && cols.timestamp < |row| && cols.sentEmailReceived < |row| && cols.email < |row|
    && LaterOnRow(cols, row)
    && parseTime(row[cols.timestamp] + " -08:00").Some?
    && (SentEmailReceived(row[cols.sentEmailReceived]) || cols.sentEmailReceived < 26)
  }

  /** A readable row parses, and each field comes from its own cell. */
  lemma ParseReadable(parseTime: string -> Option<int>, sheetName: string, sheetId: string,
                      cols: Columns, row: seq<string>, rowIndex: nat)
    requires Readable(parseTime, cols, row)
    ensures var r := Parse(parseTime, sheetName, sheetId, cols, row, rowIndex);
      && r.Ok?
      && r.value.applicant.submittedTime == parseTime(row[cols.timestamp] + " -08:00").value
      && r.value.applicant.email == row[cols.email]
      && r.value.applicant.name == row[cols.name]
      && r.value.applicant.resume == row[cols.resume]
      && r.value.applicant.materials == row[cols.materials]
      && r.value.applicant.location == Trim(row[cols.location])
      && r.value.applicant.phone == CleanPhone(row[cols.phone])
      && (r.value.applicant.github, r.value.applicant.gitlab) == Handles(row[cols.github])
      && r.value.applicant.status == RowStatus(row, cols.status)
      && r.value.applicant.role == sheetName
      && r.value.applicant.sheetId == sheetId
      && r.value.applicant.sentEmailReceived == SentEmailReceived(row[cols.sentEmailReceived])
      && r.value.applicant.countryCode == CountryCode(GuessCountry(Trim(row[cols.location]), CleanPhone(row[cols.phone])))
      && r.value.applicant.linkedin == OptionalCell(row, cols.linkedin)
      && r.value.applicant.portfolio == OptionalCell(row, cols.portfolio)
      && r.value.applicant.website == OptionalCell(row, cols.website)
      && r.value.applicant.valueReflected == OptionalCell(row, cols.valueReflected)
      && r.value.applicant.valueViolated == OptionalCell(row, cols.valueViolated)
      && r.value.applicant.valuesInTension == TensionValues(row, cols)
      && (r.value.isNew <==> !SentEmailReceived(row[cols.sentEmailReceived]))
  {
    LaterCellsOk(row, cols);
  }

  /** A row too short for its timestamp fails on the timestamp, before anything else. */
  lemma ParseShortRow(parseTime: string -> Option<int>, sheetName: string, sheetId: string,
                      cols: Columns, row: seq<string>, rowIndex: nat)
    requires cols.timestamp >= |row|
    ensures Parse(parseTime, sheetName, sheetId, cols, row, rowIndex) == Err(RowTooShort(cols.timestamp))
  {
  }

  /** A timestamp that does not parse fails the row, whatever follows. */
  lemma ParseBadTimestamp(parseTime: string -> Option<int>, sheetName: string, sheetId: string,
                          cols: Columns, row: seq<string>, rowIndex: nat)
    requires cols.timestamp < |row| && parseTime(row[cols.timestamp] + " -08:00").None?
    ensures Parse(parseTime, sheetName, sheetId, cols, row, rowIndex) == Err(BadTimestamp)
  {
  }

  /** A new applicant whose sent-email column is past 'Z' fails on the column letter,
      before the later cells are read. */
  lemma ParseNoColumnLetter(parseTime: string -> Option<int>, sheetName: string, sheetId: string,
                            cols: Columns, row: seq<string>, rowIndex: nat)
    requires cols.timestamp < |row| && parseTime(row[cols.timestamp] + " -08:00").Some?
    requires cols.sentEmailReceived < |row| && cols.email < |row|
    requires !SentEmailReceived(row[cols.sentEmailReceived]) && cols.sentEmailReceived >= 26
    ensures Parse(parseTime, sheetName, sheetId, cols, row, rowIndex) == Err(NoColumnLetter(cols.sentEmailReceived))
  {
  }

  /** The timestamp, sent-email and email cells are read without a panic. */
  predicate EarlyCellsOk(parseTime: string -> Option<int>, cols: Columns, row: seq<string>) {
    && cols.timestamp < |row| && parseTime(row[cols.timestamp] + " -08:00").Some?
    && cols.sentEmailReceived < |row| && cols.email < |row|
  }

  /** What `parse` has done outside the row by the time it returns or panics: the
      address the application-received email went to, and the sheet cell then marked
      "TRUE". Both happen before the later cells are read. */
  datatype SheetEffects = SheetEffects(emailedTo: Option<string>, marked: Option<string>)

  /** The effects of `parse` on the row at `rowIndex`, on every path, panics included:
      a new applicant is emailed once the early cells are read, and the cell is marked
      unless the column has no letter. */
  function ParseEffects(parseTime: string -> Option<int>, cols: Columns, row: seq<string>, rowIndex: nat): (e: SheetEffects)
    ensures e.marked.Some? ==> e.emailedTo.Some?
    ensures e.emailedTo.Some? <==> EarlyCellsOk(parseTime, cols, row) && !SentEmailReceived(row[cols.sentEmailReceived])
    ensures e.emailedTo.Some? ==> e.emailedTo.value == row[cols.email]
    ensures e.marked.Some? <==> e.emailedTo.Some? && cols.sentEmailReceived < 26
    ensures e.marked.Some? ==> e.marked.value == SentEmailCell(cols.sentEmailReceived, rowIndex).value
  {
    if EarlyCellsOk(parseTime, cols, row) && !SentEmailReceived(row[cols.sentEmailReceived]) then
      var marked := MarkCell(false, cols.sentEmailReceived, rowIndex);
      SheetEffects(Some(row[cols.email]), if marked.Ok? then marked.value else None)
    else
      SheetEffects(None, None)
  }

  /** On a parsed row the effects are the ones `Parse` reports: the email went to the
      applicant's address exactly when the applicant is new, and the marked cell is
      the returned one. */
  lemma ParseEffectsOk(parseTime: string -> Option<int>, sheetName: string, sheetId: string,
                       cols: Columns, row: seq<string>, rowIndex: nat)
    requires Parse(parseTime, sheetName, sheetId, cols, row, rowIndex).Ok?
    ensures var r := Parse(parseTime, sheetName, sheetId, cols, row, rowIndex);
      var e := ParseEffects(parseTime, cols, row, rowIndex);
      && e.marked == r.value.markCell
      && (e.emailedTo.Some? <==> r.value.isNew)
      && (e.emailedTo.Some? ==> e.emailedTo.value == r.value.applicant.email)
  {
    var r := Parse(parseTime, sheetName, sheetId, cols, row, rowIndex);
    var sent := SentEmailReceived(row[cols.sentEmailReceived]);
    assert Readable(parseTime, cols, row);
    assert r.value.markCell == MarkCell(sent, cols.sentEmailReceived, rowIndex).value;
    assert r.value.applicant.email == row[cols.email];
  }

  /** A row that reads past the early cells but is too short for a later one fails on
      the first missing later column; a new applicant on it has nonetheless been
      emailed and, when the column has a letter, had the cell marked. */
  lemma ParseLaterShortRow(parseTime: string -> Option<int>, sheetName: string, sheetId: string,
                           cols: Columns, row: seq<string>, rowIndex: nat)
    requires EarlyCellsOk(parseTime, cols, row) && !LaterOnRow(cols, row)
    requires SentEmailReceived(row[cols.sentEmailReceived]) || cols.sentEmailReceived < 26
    ensures var r := Parse(parseTime, sheetName, sheetId, cols, row, rowIndex);
      && r.Err?
      && exists k :: 0 <= k < 6 && r.error == RowTooShort(LaterColumns(cols)[k]) && FirstMissing(row, LaterColumns(cols), k)
    ensures !SentEmailReceived(row[cols.sentEmailReceived]) ==>
      ParseEffects(parseTime, cols, row, rowIndex) == SheetEffects(Some(row[cols.email]), Some(SentEmailCell(cols.sentEmailReceived, rowIndex).value))
  {
  }

  // ---------------------------------------------------------------------------
  // `as_slack_msg`

  const NoValues := "values not yet populated"

  /** The text one tension value adds: the first is introduced, later ones joined
      with "&". */
  function TensionPart(k: nat, tension: string): string {
    if k == 0 then " | in tension: *" + tension + "*" else " *& " + tension + "*"
  }

  /** The tension parts of the first `n` values, in order. */
  function Tensions(ts: seq<string>, n: nat): string
    requires n <= |ts|
  {
    if n == 0 then "" else Tensions(ts, n - 1) + TensionPart(n - 1, ts[n - 1])
  }

  /** The tension parts of all the values. */
  function TensionText(ts: seq<string>): string {
    Tensions(ts, |ts|)
  }

  /** The reflected and violated values, each only when set. */
  function ValuesHead(reflected: string, violated: string): string {
    (if reflected != "" then "values reflected: *" + reflected + "*" else "")
      + (if violated != "" then " | violated: *" + violated + "*" else "")
  }

  /** The values line: head and tension parts, or the placeholder when both are empty. */
  function ValuesText(reflected: string, violated: string, tensions: seq<string>): string {
    var text := ValuesHead(reflected, violated) + TensionText(tensions);
    if text == "" then NoValues else text
  }


  /** The values line as cio builds it, one `format!` at a time. */
  method ValuesMessage(reflected: string, violated: string, tensions: seq<string>) returns (msg: string)
    ensures msg == ValuesText(reflected, violated, tensions)
  {
    msg := "";
    if reflected != "" {
      msg := "values reflected: *" + reflected + "*";
    }
    if violated != "" {
      msg := msg + (" | violated: *" + violated + "*");
    }
    assert msg == ValuesHead(reflected, violated);
    msg := AppendTensions(msg, tensions);
    if msg == "" {
      msg := NoValues;
    }
  }

  /** The loop of the values line: each tension value appended in turn. */
  method AppendTensions(head: string, tensions: seq<string>) returns (msg: string)
    ensures msg == head + TensionText(tensions)
  {
    msg := head;
    for k := 0 to |tensions|
      invariant msg == head + Tensions(tensions, k)
    {
      var part := FormatTension(k, tensions[k]);
      AppendAssoc(head, Tensions(tensions, k), part);
      msg := msg + part;
    }
  }

  /** One tension value's `format!`: introduced when first, joined with "&" after. */
  method FormatTension(k: nat, tension: string) returns (part: string)
    ensures part == TensionPart(k, tension)
    ensures StartsWith(part, if k == 0 then " | in tension: *" else " *& ")
  {
    if k == 0 {
      part := " | in tension: *" + tension + "*";
    } else {
      part := " *& " + tension + "*";
    }
  }


  lemma TensionTextEmpty(ts: seq<string>)
    ensures TensionText(ts) == "" <==> ts == []
  {
    if ts != [] {
      var n := |ts| - 1;
      assert |TensionPart(n, ts[n])| > 0;
    }
  }

  /** Strings that differ at some index are different. */
  lemma DiffersAt(x: string, y: string, i: nat)
    requires i < |x| && i < |y| && x[i] != y[i]
    ensures x != y
  {
  }

  lemma AppendAssoc(a: string, b: string, c: string)
    ensures (a + b) + c == a + (b + c)
  {
  }

  /** The placeholder shows exactly when no value is set: a non-empty line always
      starts differently from it. */
  lemma ValuesPlaceholderIff(reflected: string, violated: string, tensions: seq<string>)
    ensures ValuesText(reflected, violated, tensions) == NoValues
      <==> reflected == "" && violated == "" && tensions == []
  {
    TensionTextEmpty(tensions);
    if reflected != "" {
      ReflectedNotPlaceholder(reflected, violated, tensions);
    } else if violated != "" || tensions != [] {
      LaterNotPlaceholder(violated, tensions);
    }
  }

  lemma ReflectedNotPlaceholder(reflected: string, violated: string, tensions: seq<string>)
    requires reflected != ""
    ensures ValuesHead(reflected, violated) + TensionText(tensions) != NoValues
  {
    var first := "values reflected: *" + reflected + "*";
    var rest := (if violated != "" then " | violated: *" + violated + "*" else "") + TensionText(tensions);
    AppendAssoc(first, if violated != "" then " | violated: *" + violated + "*" else "", TensionText(tensions));
    assert (first + rest)[7] == first[7] == 'r';
    DiffersAt(first + rest, NoValues, 7);
  }

  lemma LaterNotPlaceholder(violated: string, tensions: seq<string>)
    requires violated != "" || tensions != []
    ensures ValuesHead("", violated) + TensionText(tensions) != NoValues
  {
    var text := ValuesHead("", violated) + TensionText(tensions);
    if violated != "" {
      assert text[0] == ' ';
    } else {
      assert text == TensionText(tensions);
      TensionTextStart(tensions);
      assert text[0] == ' ';
    }
    DiffersAt(text, NoValues, 0);
  }

  /** Tension text, when present, starts with " | in tension: *". */
  lemma TensionTextStart(ts: seq<string>)
    requires ts != []
    ensures StartsWith(TensionText(ts), " | in tension: *")
  {
    TensionsStart(ts, |ts|);
  }

  lemma {:induction false} TensionsStart(ts: seq<string>, n: nat)
    requires 1 <= n <= |ts|
    ensures StartsWith(Tensions(ts, n), " | in tension: *")
  {
    var b := TensionPart(n - 1, ts[n - 1]);
    if n == 1 {
      assert Tensions(ts, 1) == " | in tension: *" + (ts[0] + "*");
      StartsWithAppend(" | in tension: *", ts[0] + "*", " | in tension: *");
    } else {
      TensionsStart(ts, n - 1);
      StartsWithAppend(Tensions(ts, n - 1), b, " | in tension: *");
    }
  }

  /** Two tension values read " | in tension: *a* *& b*". */
  lemma TwoTensions(a: string, b: string)
    ensures TensionText([a, b]) == " | in tension: *" + a + "*" + " *& " + b + "*"
  {
    assert Tensions([a, b], 1) == TensionPart(0, a);
  }

  /** The intro line: bold name, mail link, and the location when set. */
  function IntroText(a: Applicant): (r: string)
    ensures StartsWith(r, "*" + a.name + "*  " + Link("mailto:" + a.email, a.email))
  {
    var head := "*" + a.name + "*  " + Link("mailto:" + a.email, a.email);
    var r := head + (if a.location != "" then "  " + a.location else "");
    assert r[..|head|] == head;
    r
  }

  /** One " | "-separated link, present only when its value is set. */
  function OptionalLink(value: string, link: string): (r: string)
    ensures value == "" <==> r == ""
  {
    if value != "" then " | " + link else ""
  }

  /** The links line: resume and materials, then phone, GitHub, GitLab, LinkedIn,
      portfolio and website, each when set. */
  function InfoText(a: Applicant): string {
    Link(a.resume, "resume") + " | " + Link(a.materials, "materials")
      + OptionalLink(a.phone, Link("tel:" + a.phone, a.phone))
      + OptionalLink(a.github, Link("https://github.com/" + TrimStartMatches(a.github, "@"), "github:" + a.github))
      + OptionalLink(a.gitlab, Link("https://gitlab.com/" + TrimStartMatches(a.gitlab, "@"), "gitlab:" + a.gitlab))
      + OptionalLink(a.linkedin, Link(a.linkedin, "linkedin"))
      + OptionalLink(a.portfolio, Link(a.portfolio, "portfolio"))
      + OptionalLink(a.website, Link(a.website, "website"))
  }

  /** The status line: the sheet link under the role, how long ago the application
      came in (`appliedAgo`, a wall-clock reading), and the status when set. */
  function StatusText(a: Applicant, appliedAgo: string): string {
    Link("https://docs.google.com/spreadsheets/d/" + a.sheetId, a.role) + " Applicant | applied " + appliedAgo
      + (if a.status != "" then " | status: *" + a.status + "*" else "")
  }

  /** `NewApplicant::as_slack_msg`: intro section, then the links, values and status
      context blocks. */
  function ApplicantBlocks(a: Applicant, appliedAgo: string): (r: seq<Block>)
    ensures |r| == 4
    ensures r[0].kind == Section && forall i :: 1 <= i < 4 ==> r[i].kind == Context
    ensures r[2].text == NoValues <==> a.valueReflected == "" && a.valueViolated == "" && a.valuesInTension == []
  {
    var values := ValuesText(a.valueReflected, a.valueViolated, a.valuesInTension);
    assert values == NoValues <==> a.valueReflected == "" && a.valueViolated == "" && a.valuesInTension == [] by {
      ValuesPlaceholderIff(a.valueReflected, a.valueViolated, a.valuesInTension);
    }
    Blocks(IntroText(a), InfoText(a), values, StatusText(a, appliedAgo))
  }

  /** The four blocks in their order: the intro as a section, the rest as context. */
  function Blocks(intro: string, info: string, values: string, status: string): (r: seq<Block>)
    ensures |r| == 4 && r[0] == Block(Section, intro) && r[1] == Block(Context, info)
    ensures r[2] == Block(Context, values) && r[3] == Block(Context, status)
  {
    [Block(Section, intro), Block(Context, info), Block(Context, values), Block(Context, status)]
  }

  /** A GitHub link in the links line points at the handle without its '@'. */
  lemma GithubLinkTarget(u: string)
    requires PlainUser(u)
    ensures TrimStartMatches("@" + u, "@") == u
  {
    assert ("@" + u)[1..] == u;
    assert !StartsWith(u, "@");
  }
}

=== FILE: decimal.dfy ===
/** Decimal text of integers: Rust's `to_string` on integers, zero padding,
    and the greedy digit scanner that chrono's `%m`, `%d` and `%Y` parsers use. */
module Decimal {
  import opened Wrappers

  predicate IsDigit(c: char) {
    '0' <= c <= '9'
  }

  predicate AllDigits(s: string) {
    forall i :: 0 <= i < |s| ==> IsDigit(s[i])
  }

  function DigitChar(d: nat): (c: char)
    requires d < 10
    ensures IsDigit(c) && DigitValue(c) == d
  {
    ('0' as int + d) as char
  }

  function DigitValue(c: char): (d: nat)
    requires IsDigit(c)
    ensures d < 10
  {
    c as int - '0' as int
  }

  /** The value of a string of decimal digits, most significant digit first. */
  function Value(s: string): nat
    requires AllDigits(s)
  {
    if |s| == 0 then 0 else Value(s[..|s| - 1]) * 10 + DigitValue(s[|s| - 1])
  }

  /** Digit strings of the same length are equal exactly when their values are. */
  lemma {:induction false} ValueInjective(a: string, b: string)
    requires AllDigits(a) && AllDigits(b) && |a| == |b|
    ensures Value(a) == Value(b) <==> a == b
  {
    if |a| > 0 && Value(a) == Value(b) {
      var n := |a| - 1;
      ValueLastDigit(a);
      ValueLastDigit(b);
      assert a[n] == b[n];
      ValueInjective(a[..n], b[..n]);
      assert a == a[..n] + [a[n]] && b == b[..n] + [b[n]];
    }
  }

  /** The last digit of a digit string is its value's remainder by ten, and the rest
      is the quotient. */
  lemma ValueLastDigit(s: string)
    requires AllDigits(s) && |s| > 0
    ensures Value(s) % 10 == DigitValue(s[|s| - 1])
    ensures Value(s) / 10 == Value(s[..|s| - 1])
  {
    var q := Value(s[..|s| - 1]);
    var d := DigitValue(s[|s| - 1]);
    assert Value(s) == q * 10 + d && 0 <= d < 10;
  }

  /** The shortest decimal text of `n`, as Rust's `Display` writes it. */
  function NatToString(n: nat): (r: string)
    ensures |r| >= 1 && AllDigits(r)
    ensures Value(r) == n
    ensures r[0] == '0' ==> n == 0 && r == "0"
  {
    if n < 10 then [DigitChar(n)]
    else
      var r := NatToString(n / 10) + [DigitChar(n % 10)];
      assert r[..|r| - 1] == NatToString(n / 10);
      r
  }

  /** Rust's `Display` of a signed integer: a '-' before the magnitude when negative. */
  function IntToString(i: int): (r: string)
    ensures i >= 0 ==> r == NatToString(i)
    ensures i < 0 ==> r == "-" + NatToString(-i)
  {
    if i < 0 then "-" + NatToString(-i) else NatToString(i)
  }

  /** Ten to the power `w`. */
  function Pow10(w: nat): (p: nat)
    ensures p >= 1
  {
    if w == 0 then 1 else 10 * Pow10(w - 1)
  }

  /** `n` is written in at most `w` digits exactly when it is below ten to the `w`. */
  lemma {:induction false} NatToStringLength(n: nat, w: nat)
    requires 1 <= w
    ensures |NatToString(n)| <= w <==> n < Pow10(w)
  {
    if n >= 10 {
      assert |NatToString(n)| == |NatToString(n / 10)| + 1;
      if w == 1 {
        assert Pow10(1) == 10;
      } else {
        NatToStringLength(n / 10, w - 1);
        var p := Pow10(w - 1);
        assert n == 10 * (n / 10) + n % 10 && 0 <= n % 10 < 10;
        assert n / 10 < p <==> n < 10 * p;
      }
    } else {
      assert Pow10(w) == 10 * Pow10(w - 1);
    }
  }

  function Zeros(k: nat): (r: string)
    ensures |r| == k && AllDigits(r)
    ensures forall i :: 0 <= i < k ==> r[i] == '0'
  {
    seq(k, _ => '0')
  }

  /** `s` padded on the left with '0' up to width `w`; never shortened. */
  function ZeroPad(s: string, w: nat): (r: string)
    ensures |s| >= w ==> r == s
    ensures |s| < w ==> |r| == w
    ensures exists k: nat :: r == Zeros(k) + s
  {
    var k: nat := if |s| < w then w - |s| else 0;
    assert Zeros(0) + s == s;
    Zeros(k) + s
  }

  lemma {:induction false} ValueOfZeros(k: nat)
    ensures Value(Zeros(k)) == 0
  {
    if k > 0 {
      assert Zeros(k)[..k - 1] == Zeros(k - 1);
      ValueOfZeros(k - 1);
    }
  }

  /** Leading zeros do not change the value of a digit string. */
  lemma {:induction false} ValueIgnoresLeadingZeros(k: nat, s: string)
    requires AllDigits(s)
    ensures AllDigits(Zeros(k) + s)
    ensures Value(Zeros(k) + s) == Value(s)
  {
    var z := Zeros(k) + s;
    assert forall i :: 0 <= i < |z| ==> IsDigit(z[i]) by {
      forall i | 0 <= i < |z| ensures IsDigit(z[i]) {
        if i < k { assert z[i] == '0'; } else { assert z[i] == s[i - k]; }
      }
    }
    if |s| == 0 {
      assert z == Zeros(k);
      ValueOfZeros(k);
    } else {
      var s' := s[..|s| - 1];
      assert z[..|z| - 1] == Zeros(k) + s';
      ValueIgnoresLeadingZeros(k, s');
    }
  }

  /** The number of leading ASCII digits of `s`, counting at most `max`. */
  function LeadingDigits(s: string, max: nat): (k: nat)
    ensures k <= max && k <= |s|
    ensures AllDigits(s[..k])
    ensures k < max && k < |s| ==> !IsDigit(s[k])
  {
    if max == 0 || |s| == 0 || !IsDigit(s[0]) then 0
    else
      var k := 1 + LeadingDigits(s[1..], max - 1);
      assert s[..k] == [s[0]] + s[1..][..k - 1];
      k
  }

  /** chrono's `scan::number(s, 1, max)`: read between 1 and `max` digits greedily,
      returning the value and the unread rest, or nothing when no digit comes first. */
  function ScanNumber(s: string, max: nat): (r: Option<(nat, string)>)
    ensures r.Some? <==> max >= 1 && |s| >= 1 && IsDigit(s[0])
    ensures r.Some? ==> |r.value.1| < |s|
  {
    var k := LeadingDigits(s, max);
    if k == 0 then None else Some((Value(s[..k]), s[k..]))
  }

  lemma {:induction false} LeadingDigitsOfPrefix(ds: string, rest: string, max: nat)
    requires AllDigits(ds) && |ds| <= max
    requires |ds| == max || rest == [] || !IsDigit(rest[0])
    ensures LeadingDigits(ds + rest, max) == |ds|
  {
    if |ds| > 0 {
      assert (ds + rest)[1..] == ds[1..] + rest;
      LeadingDigitsOfPrefix(ds[1..], rest, max - 1);
    } else {
      assert ds + rest == rest;
    }
  }

  /** Scanning a digit string that fits the width reads all of it. */
  lemma ScanNumberAll(ds: string, max: nat)
    requires AllDigits(ds) && 1 <= |ds| <= max
    ensures ScanNumber(ds, max) == Some((Value(ds), []))
  {
    assert ds + [] == ds;
    ScanNumberOfPrefix(ds, [], max);
  }

  /** Scanning a digit string that is not followed by another digit (or that fills
      the width) reads back exactly that string's value. */
  lemma ScanNumberOfPrefix(ds: string, rest: string, max: nat)
    requires AllDigits(ds) && 1 <= |ds| <= max
    requires |ds| == max || rest == [] || !IsDigit(rest[0])
    ensures ScanNumber(ds + rest, max) == Some((Value(ds), rest))
  {
    LeadingDigitsOfPrefix(ds, rest, max);
    assert (ds + rest)[..|ds|] == ds;
    assert (ds + rest)[|ds|..] == rest;
  }
}

=== FILE: journal_clubs.dfy ===
/** The journal-club synchronisation of cio/src/journal_clubs.rs, with every network
    and database call replaced by the values it returns or the operations it issues:
    the meetings read from the papers repository become database upserts, and the
    database rows are reconciled with the Airtable records into a plan of updates and
    creations. */
module JournalClubs {
  import opened Wrappers
  import opened MeetingDates
  import opened PaperCodec
  import opened JournalModels

  /** A meeting as listed in the papers repository's `meetings.json`. */
  datatype Meeting = Meeting(
    title: string,
    issue: string,
    papers: seq<Paper>,
    issueDate: NaiveDate,
    meetingDate: NaiveDate,
    coordinator: string,
    state: string,
    recording: string)

  /** `Meeting::to_model`: every field copied, the papers stored as text. */
  function ToModel(m: Meeting): (r: MeetingRecord)
    ensures |r.papers| == |m.papers|
    ensures r.title == m.title && r.issue == m.issue
    ensures r.issueDate == m.issueDate && r.meetingDate == m.meetingDate
    ensures r.coordinator == m.coordinator && r.state == m.state && r.recording == m.recording
  {
    MeetingRecord(m.title, m.issue, EncodeAll(m.papers), m.issueDate, m.meetingDate,
      m.coordinator, m.state, m.recording)
  }

  /** The stored papers of `ToModel` decode back to the meeting's papers, in order. */
  lemma ToModelPapers(m: Meeting)
    ensures DecodeAll(ToModel(m).papers) == Some(m.papers)
  {
    DecodeAllEncodeAll(m.papers);
  }

  /** A meeting stored by `ToModel` can always be shown in Slack, and its paper
      blocks are those of the meeting's own papers. */
  lemma StoredMeetingRenders(m: Meeting)
    ensures MeetingBlocks(ToModel(m)).Some?
    ensures MeetingBlocks(ToModel(m)).value == Blocks(ToModel(m), MeetingInfo(ToModel(m)), m.papers)
  {
    ToModelPapers(m);
  }

  // ---------------------------------------------------------------------------
  // refresh_db_journal_club_meetings

  /** A database write issued by the refresh. */
  datatype DbOp = UpsertMeeting(meeting: MeetingRecord) | UpsertPaper(paper: Paper)

  /** The writes for one meeting: the meeting, then each of its papers tagged with
      the meeting's issue. */
  function MeetingUpserts(m: Meeting): (r: seq<DbOp>)
    ensures |r| == 1 + |m.papers|
    ensures r[0] == UpsertMeeting(ToModel(m))
    ensures forall i :: 0 <= i < |m.papers| ==> r[1..][i].UpsertPaper? && r[1..][i].paper.meeting == m.issue
    ensures forall i :: 0 <= i < |m.papers| ==> r[1..][i].paper.(meeting := m.papers[i].meeting) == m.papers[i]
  {
    [UpsertMeeting(ToModel(m))]
      + seq(|m.papers|, i requires 0 <= i < |m.papers| => UpsertPaper(m.papers[i].(meeting := m.issue)))
  }

  /** The writes of `refresh_db_journal_club_meetings`, in the order it issues them. */
  function RefreshDbPlan(ms: seq<Meeting>): seq<DbOp> {
    if ms == [] then [] else MeetingUpserts(ms[0]) + RefreshDbPlan(ms[1..])
  }

  /** The issue of the most recent meeting written, if any. */
  function LastMeetingIssue(ops: seq<DbOp>): Option<string> {
    if ops == [] then None
    else if ops[|ops| - 1].UpsertMeeting? then Some(ops[|ops| - 1].meeting.issue)
    else LastMeetingIssue(ops[..|ops| - 1])
  }

  /** The meetings written, in order. */
  function MeetingsWritten(ops: seq<DbOp>): seq<MeetingRecord> {
    if ops == [] then []
    else (if ops[0].UpsertMeeting? then [ops[0].meeting] else []) + MeetingsWritten(ops[1..])
  }

  lemma {:induction false} LastMeetingIssueAppend(a: seq<DbOp>, b: seq<DbOp>)
    ensures LastMeetingIssue(a + b) == if LastMeetingIssue(b).Some? then LastMeetingIssue(b) else LastMeetingIssue(a)
    decreases |b|
  {
    if b == [] {
      assert a + b == a;
    } else {
      var n := |b| - 1;
      assert (a + b)[..|a + b| - 1] == a + b[..n];
      LastMeetingIssueAppend(a, b[..n]);
    }
  }

  lemma {:induction false} MeetingsWrittenAppend(a: seq<DbOp>, b: seq<DbOp>)
    ensures MeetingsWritten(a + b) == MeetingsWritten(a) + MeetingsWritten(b)
  {
    if a == [] {
      assert a + b == b;
    } else {
      var x := if a[0].UpsertMeeting? then [a[0].meeting] else [];
      assert (a + b)[0] == a[0] && (a + b)[1..] == a[1..] + b;
      assert MeetingsWritten(a + b) == x + MeetingsWritten(a[1..] + b);
      MeetingsWrittenAppend(a[1..], b);
      assert x + (MeetingsWritten(a[1..]) + MeetingsWritten(b)) == (x + MeetingsWritten(a[1..])) + MeetingsWritten(b);
    }
  }

  /** Within one meeting's writes, every paper comes after its meeting and no other. */
  lemma UpsertsTagged(m: Meeting, j: nat)
    requires 0 < j <= |MeetingUpserts(m)|
    ensures LastMeetingIssue(MeetingUpserts(m)[..j]) == Some(m.issue)
  {
    var ops := MeetingUpserts(m);
    if j > 1 {
      assert ops[..j][..j - 1] == ops[..j - 1];
      UpsertsTagged(m, j - 1);
    }
  }

  lemma MeetingUpsertsWritten(m: Meeting)
    ensures MeetingsWritten(MeetingUpserts(m)) == [ToModel(m)]
  {
    var ops := MeetingUpserts(m);
    var papers := ops[1..];
    assert forall i :: 0 <= i < |papers| ==> papers[i].UpsertPaper?;
    PapersWriteNoMeeting(papers);
  }

  lemma {:induction false} PapersWriteNoMeeting(ops: seq<DbOp>)
    requires forall i :: 0 <= i < |ops| ==> ops[i].UpsertPaper?
    ensures MeetingsWritten(ops) == []
  {
    if ops != [] {
      PapersWriteNoMeeting(ops[1..]);
    }
  }

  /** A written paper is tagged with the meeting most recently written before it. */
  predicate TaggedAt(ops: seq<DbOp>, j: int)
    requires 0 <= j < |ops|
  {
    ops[j].UpsertPaper? ==> LastMeetingIssue(ops[..j]) == Some(ops[j].paper.meeting)
  }

  lemma TaggedInHead(m: Meeting, tail: seq<DbOp>, j: nat)
    requires j < |MeetingUpserts(m)|
    ensures TaggedAt(MeetingUpserts(m) + tail, j)
  {
    var head := MeetingUpserts(m);
    var plan := head + tail;
    if j > 0 {
      assert plan[..j] == head[..j];
      UpsertsTagged(m, j);
      assert plan[j] == head[j] == head[1..][j - 1];
    }
  }

  lemma TaggedInTail(head: seq<DbOp>, tail: seq<DbOp>, k: nat)
    requires k < |tail| && TaggedAt(tail, k)
    ensures TaggedAt(head + tail, |head| + k)
  {
    var plan := head + tail;
    var j := |head| + k;
    assert plan[..j] == head + tail[..k];
    assert plan[j] == tail[k];
    LastMeetingIssueAppend(head, tail[..k]);
  }

  /** Paper tagging: every paper the refresh writes carries the issue of the meeting
      written just before it. */
  lemma {:induction false} PapersTaggedWithMeeting(ms: seq<Meeting>)
    ensures forall j :: 0 <= j < |RefreshDbPlan(ms)| ==> TaggedAt(RefreshDbPlan(ms), j)
  {
    if ms != [] {
      PapersTaggedWithMeeting(ms[1..]);
      TaggedAfterMeeting(ms[0], RefreshDbPlan(ms[1..]));
    }
  }

  /** Putting one meeting's writes before a correctly tagged plan keeps it tagged. */
  lemma TaggedAfterMeeting(m: Meeting, tail: seq<DbOp>)
    requires forall k :: 0 <= k < |tail| ==> TaggedAt(tail, k)
    ensures forall j :: 0 <= j < |MeetingUpserts(m) + tail| ==> TaggedAt(MeetingUpserts(m) + tail, j)
  {
    var head := MeetingUpserts(m);
    forall j | 0 <= j < |head + tail|
      ensures TaggedAt(head + tail, j)
    {
      if j < |head| {
        TaggedInHead(m, tail, j);
      } else {
        TaggedInTail(head, tail, j - |head|);
      }
    }
  }

  /** The refresh writes each repository meeting once, in order, as `ToModel` stores it. */
  lemma {:induction false} RefreshDbWritesEveryMeeting(ms: seq<Meeting>)
    ensures MeetingsWritten(RefreshDbPlan(ms)) == seq(|ms|, i requires 0 <= i < |ms| => ToModel(ms[i]))
  {
    if ms != [] {
      MeetingsWrittenAppend(MeetingUpserts(ms[0]), RefreshDbPlan(ms[1..]));
      MeetingUpsertsWritten(ms[0]);
      RefreshDbWritesEveryMeeting(ms[1..]);
    }
  }

  // ---------------------------------------------------------------------------
  // refresh_airtable_journal_club_meetings / refresh_airtable_journal_club_papers

  /** An Airtable record: its record id (absent until Airtable assigns one) and the
      row it holds. */
  datatype Record<T> = Record(recordId: Option<string>, fields: Row<T>)

  /** A write to Airtable: overwrite the fields of an existing record, or create one. */
  datatype Op<T> = Update(recordId: Option<string>, payload: Row<T>) | Create(payload: Row<T>)

  datatype SyncError = MissingRecordId

  /** A map filled by inserting the pairs in order, so that a later pair overrides
      an earlier one with the same key (`BTreeMap::insert` in a loop). */
  function LastWins<K(==), V>(entries: seq<(K, V)>): map<K, V> {
    if entries == [] then map[]
    else LastWins(entries[..|entries| - 1])[entries[|entries| - 1].0 := entries[|entries| - 1].1]
  }

  /** The keys of `LastWins` are exactly the keys of the pairs. */
  lemma {:induction false} LastWinsKeys<K, V>(entries: seq<(K, V)>)
    ensures LastWins(entries).Keys == set i | 0 <= i < |entries| :: entries[i].0
  {
    if entries != [] {
      var n := |entries| - 1;
      LastWinsKeys(entries[..n]);
      var before := set i | 0 <= i < n :: entries[..n][i].0;
      var all := set i | 0 <= i < |entries| :: entries[i].0;
      assert all == before + {entries[n].0} by {
        forall k | k in all ensures k in before + {entries[n].0} {
          var i :| 0 <= i < |entries| && entries[i].0 == k;
          if i < n {
            assert entries[..n][i].0 == k;
          }
        }
        forall k | k in before ensures k in all {
          var i :| 0 <= i < n && entries[..n][i].0 == k;
          assert entries[i].0 == k;
        }
      }
    }
  }

  /** The value `LastWins` keeps for a key is that of the key's last pair. */
  lemma {:induction false} LastWinsValue<K, V>(entries: seq<(K, V)>, i: int)
    requires 0 <= i < |entries| && IsLast(entries, i)
    ensures entries[i].0 in LastWins(entries) && LastWins(entries)[entries[i].0] == entries[i].1
  {
    var n := |entries| - 1;
    if i < n {
      assert entries[n].0 != entries[i].0;
      assert entries[..n][i] == entries[i];
      assert IsLast(entries[..n], i) by {
        forall j | i < j < n ensures entries[..n][j].0 != entries[..n][i].0 {
          assert entries[..n][j] == entries[j];
        }
      }
      LastWinsValue(entries[..n], i);
    }
  }

  /** No later pair has the same key as pair `i`. */
  predicate IsLast<K(==), V>(entries: seq<(K, V)>, i: int)
    requires 0 <= i < |entries|
  {
    forall j :: i < j < |entries| ==> entries[j].0 != entries[i].0
  }

  /** The records indexed by the database id they carry. */
  function ById<T>(records: seq<Record<T>>): map<int, Record<T>> {
    LastWins(seq(|records|, i requires 0 <= i < |records| => (records[i].fields.id, records[i])))
  }

  /** Update the indexed record with this id, or create a new one. */
  function Route<T>(payload: Row<T>, index: map<int, Record<T>>): (r: Op<T>)
    ensures r.payload == payload
    ensures r.Update? <==> payload.id in index
    ensures r.Update? ==> r.recordId == index[payload.id].recordId
  {
    if payload.id in index then Update(index[payload.id].recordId, payload) else Create(payload)
  }

  /** The number of updates among the operations. */
  function CountUpdates<T>(ops: seq<Op<T>>): nat {
    if ops == [] then 0
    else CountUpdates(ops[..|ops| - 1]) + (if ops[|ops| - 1].Update? then 1 else 0)
  }

  lemma CountUpdatesAppend<T>(ops: seq<Op<T>>, op: Op<T>)
    ensures CountUpdates(ops + [op]) == CountUpdates(ops) + (if op.Update? then 1 else 0)
  {
    assert (ops + [op])[..|ops|] == ops;
  }

  /** The count never exceeds the operations; it is all of them exactly when every
      operation is an update, and none exactly when every one is a create. */
  lemma {:induction false} CountUpdatesBounds<T>(ops: seq<Op<T>>)
    ensures CountUpdates(ops) <= |ops|
    ensures CountUpdates(ops) == |ops| <==> forall i :: 0 <= i < |ops| ==> ops[i].Update?
    ensures CountUpdates(ops) == 0 <==> forall i :: 0 <= i < |ops| ==> ops[i].Create?
  {
    if ops != [] {
      var n := |ops| - 1;
      CountUpdatesBounds(ops[..n]);
      assert forall i :: 0 <= i < n ==> ops[..n][i] == ops[i];
    }
  }

  /** The records' ids are exactly the keys of `ById`. */
  lemma ByIdKeys<T>(records: seq<Record<T>>)
    ensures ById(records).Keys == set i | 0 <= i < |records| :: records[i].fields.id
  {
    var pairs := seq(|records|, i requires 0 <= i < |records| => (records[i].fields.id, records[i]));
    LastWinsKeys(pairs);
    assert forall i :: 0 <= i < |records| ==> pairs[i].0 == records[i].fields.id;
  }

  /** `ById` keeps, for each id, the last record that carries it. */
  lemma ByIdLast<T>(records: seq<Record<T>>, i: int)
    requires 0 <= i < |records|
    requires forall j :: i < j < |records| ==> records[j].fields.id != records[i].fields.id
    ensures records[i].fields.id in ById(records) && ById(records)[records[i].fields.id] == records[i]
  {
    var pairs := seq(|records|, i requires 0 <= i < |records| => (records[i].fields.id, records[i]));
    assert IsLast(pairs, i);
    LastWinsValue(pairs, i);
  }

  /** A meeting as pushed to Airtable: its papers are those already in Airtable for
      the same id, or none for a new record. */
  function MeetingPayload(row: Row<MeetingRecord>, index: map<int, Record<MeetingRecord>>): (r: Row<MeetingRecord>)
    ensures r.id == row.id
    ensures r.data.(papers := row.data.papers) == row.data
    ensures r.data.papers == if row.id in index then index[row.id].fields.data.papers else []
  {
    var papers := if row.id in index then index[row.id].fields.data.papers else [];
    Row(row.id, row.data.(papers := papers))
  }

  /** `refresh_airtable_journal_club_meetings`: one operation per database meeting, in
      order, and the number of updates it counts. */
  method PlanMeetings(local: seq<Row<MeetingRecord>>, remote: seq<Record<MeetingRecord>>)
    returns (ops: seq<Op<MeetingRecord>>, updated: nat)
    ensures |ops| == |local|
    ensures forall i :: 0 <= i < |local| ==> ops[i] == Route(MeetingPayload(local[i], ById(remote)), ById(remote))
    ensures updated == CountUpdates(ops)
  {
    var index := ById(remote);
    ops := [];
    updated := 0;
    for i := 0 to |local|
      invariant |ops| == i
      invariant forall j :: 0 <= j < i ==> ops[j] == Route(MeetingPayload(local[j], index), index)
      invariant updated == CountUpdates(ops)
    {
      var op := Route(MeetingPayload(local[i], index), index);
      CountUpdatesAppend(ops, op);
      ops := ops + [op];
      if op.Update? {
        updated := updated + 1;
      }
    }
  }

  /** A paper's link to its meeting: set to the meeting's record when the meeting's
      issue is known with a non-empty record id, otherwise left as loaded. */
  function LinkPaper(row: Row<Paper>, issues: map<string, string>): (r: Row<Paper>)
    ensures r.id == row.id
    ensures r.data.(linkToMeeting := row.data.linkToMeeting) == row.data
    ensures row.data.meeting in issues && issues[row.data.meeting] != "" ==> r.data.linkToMeeting == [issues[row.data.meeting]]
    ensures !(row.data.meeting in issues && issues[row.data.meeting] != "") ==> r == row
  {
    var meetingRecordId := if row.data.meeting in issues then issues[row.data.meeting] else "";
    if meetingRecordId != "" then Row(row.id, row.data.(linkToMeeting := [meetingRecordId])) else row
  }

  /** The meetings' record ids by issue; every meeting record must have an id (the
      program unwraps it). */
  function ByIssue(meetings: seq<Record<MeetingRecord>>): (r: Result<map<string, string>, SyncError>)
    ensures r.Err? <==> exists i :: 0 <= i < |meetings| && meetings[i].recordId.None?
    ensures r.Ok? ==> r.value.Keys == set i | 0 <= i < |meetings| :: meetings[i].fields.data.issue
  {
    if exists i :: 0 <= i < |meetings| && meetings[i].recordId.None? then Err(MissingRecordId)
    else
      var pairs := seq(|meetings|, i requires 0 <= i < |meetings| => (meetings[i].fields.data.issue, meetings[i].recordId.GetOr("")));
      LastWinsKeys(pairs);
      assert forall i :: 0 <= i < |meetings| ==> pairs[i].0 == meetings[i].fields.data.issue;
      Ok(LastWins(pairs))
  }

  datatype PaperPlan = PaperPlan(ops: seq<Op<Paper>>, updated: nat)

  /** `refresh_airtable_journal_club_papers`: each database paper, linked to its
      meeting, becomes one operation, in order. */
  method PlanPapers(local: seq<Row<Paper>>, remote: seq<Record<Paper>>, meetings: seq<Record<MeetingRecord>>)
    returns (r: Result<PaperPlan, SyncError>)
    ensures r.Err? <==> ByIssue(meetings).Err?
    ensures r.Ok? ==> |r.value.ops| == |local|
    ensures r.Ok? ==> forall i :: 0 <= i < |local| ==>
      r.value.ops[i] == Route(LinkPaper(local[i], ByIssue(meetings).value), ById(remote))
    ensures r.Ok? ==> r.value.updated == CountUpdates(r.value.ops)
  {
    var index := ById(remote);
    var byIssue := ByIssue(meetings);
    if byIssue.Err? {
      return Err(byIssue.error);
    }
    var issues := byIssue.value;
    var ops: seq<Op<Paper>> := [];
    var updated := 0;
    for i := 0 to |local|
      invariant |ops| == i
      invariant forall j :: 0 <= j < i ==> ops[j] == Route(LinkPaper(local[j], issues), index)
      invariant updated == CountUpdates(ops)
    {
      var op := Route(LinkPaper(local[i], issues), index);
      CountUpdatesAppend(ops, op);
      ops := ops + [op];
      if op.Update? {
        updated := updated + 1;
      }
    }
    return Ok(PaperPlan(ops, updated));
  }

  /** A database meeting updates an Airtable record exactly when some record carries
      its id; otherwise it is created with no papers. */
  lemma MeetingRouted(row: Row<MeetingRecord>, remote: seq<Record<MeetingRecord>>)
    ensures var op := Route(MeetingPayload(row, ById(remote)), ById(remote));
      && (op.Update? <==> exists k :: 0 <= k < |remote| && remote[k].fields.id == row.id)
      && (op.Create? ==> op.payload.data.papers == [])
  {
    ByIdKeys(remote);
  }

  /** The record a meeting updates is the last Airtable record with its id, and the
      meeting keeps that record's papers. */
  lemma MeetingUpdatesLastRecord(row: Row<MeetingRecord>, remote: seq<Record<MeetingRecord>>, k: int)
    requires 0 <= k < |remote| && remote[k].fields.id == row.id
    requires forall j :: k < j < |remote| ==> remote[j].fields.id != row.id
    ensures var op := Route(MeetingPayload(row, ById(remote)), ById(remote));
      && op.Update?
      && op.recordId == remote[k].recordId
      && op.payload.data == row.data.(papers := remote[k].fields.data.papers)
  {
    ByIdLast(remote, k);
  }

  /** Against an empty table every database meeting is created and nothing is counted
      as updated. */
  lemma FirstSyncCreatesAll(local: seq<Row<MeetingRecord>>)
    ensures var ops := seq(|local|, i requires 0 <= i < |local| => Route(MeetingPayload(local[i], ById([])), ById([])));
      && (forall i :: 0 <= i < |ops| ==> ops[i].Create?)
      && CountUpdates(ops) == 0
  {
    var ops := seq(|local|, i requires 0 <= i < |local| => Route(MeetingPayload(local[i], ById([])), ById([])));
    ByIdKeys<MeetingRecord>([]);
    CountUpdatesBounds(ops);
  }

  /** `ByIssue` maps an issue to the record id of the last meeting record with that issue. */
  lemma ByIssueLast(meetings: seq<Record<MeetingRecord>>, k: int)
    requires ByIssue(meetings).Ok?
    requires 0 <= k < |meetings|
    requires forall j :: k < j < |meetings| ==> meetings[j].fields.data.issue != meetings[k].fields.data.issue
    ensures meetings[k].recordId.Some?
    ensures ByIssue(meetings).value[meetings[k].fields.data.issue] == meetings[k].recordId.value
  {
    var pairs := seq(|meetings|, i requires 0 <= i < |meetings| => (meetings[i].fields.data.issue, meetings[i].recordId.GetOr("")));
    assert IsLast(pairs, k);
    LastWinsValue(pairs, k);
  }

  /** A database paper whose meeting is the issue of the last meeting record `k`, with
      a non-empty record id, is linked to exactly that record. */
  lemma PaperLinkedToMeeting(row: Row<Paper>, meetings: seq<Record<MeetingRecord>>, k: int)
    requires ByIssue(meetings).Ok?
    requires 0 <= k < |meetings| && meetings[k].fields.data.issue == row.data.meeting
    requires forall j :: k < j < |meetings| ==> meetings[j].fields.data.issue != row.data.meeting
    requires meetings[k].recordId != Some("")
    ensures LinkPaper(row, ByIssue(meetings).value).data.linkToMeeting == [meetings[k].recordId.value]
  {
    ByIssueLast(meetings, k);
  }

  /** A database paper whose meeting no Airtable meeting has as its issue is pushed as loaded. */
  lemma PaperUnlinkedKept(row: Row<Paper>, meetings: seq<Record<MeetingRecord>>)
    requires ByIssue(meetings).Ok?
    requires forall j :: 0 <= j < |meetings| ==> meetings[j].fields.data.issue != row.data.meeting
    ensures LinkPaper(row, ByIssue(meetings).value) == row
  {
  }
}

=== FILE: journal_models.dfy ===
/** The journal-club records kept in the database and pushed to Airtable, and the
    Slack message a stored meeting is shown as (`JournalClubMeeting::as_slack_msg`). */
module JournalModels {
  import opened Wrappers
  import opened MeetingDates
  import opened PaperCodec
  import opened Slack

  /** `NewJournalClubMeeting`: the papers are kept in their stored (encoded) form. */
  datatype MeetingRecord = MeetingRecord(
    title: string,
    issue: string,
    papers: seq<string>,
    issueDate: NaiveDate,
    meetingDate: NaiveDate,
    coordinator: string,
    state: string,
    recording: string)

  /** A database row: the `New*` record plus the integer id the database assigns. */
  datatype Row<T> = Row(id: int, data: T)

  /** The title a paper is shown under: "Paper" when it repeats the meeting's title. */
  function PaperLabel(meetingTitle: string, p: Paper): (r: string)
    ensures r == "Paper" <==> p.title == meetingTitle || p.title == "Paper"
    ensures r != "Paper" ==> r == p.title
  {
    if p.title == meetingTitle then "Paper" else p.title
  }

  /** One context block per paper, in order: a link to the paper under its label. */
  function PaperBlocks(meetingTitle: string, papers: seq<Paper>): (r: seq<Block>)
    ensures |r| == |papers|
    ensures forall i :: 0 <= i < |papers| ==>
      r[i].kind == Context && r[i].text == Link(papers[i].link, PaperLabel(meetingTitle, papers[i]))
  {
    seq(|papers|, i requires 0 <= i < |papers| => Block(Context, Link(papers[i].link, PaperLabel(meetingTitle, papers[i]))))
  }

  /** The context line under the title: coordinator, issue date and status, and the
      meeting date unless it is the placeholder date. */
  function MeetingInfo(m: MeetingRecord): (r: string)
    ensures m.meetingDate == Sentinel ==> r == InfoHead(m)
    ensures m.meetingDate != Sentinel ==> r == InfoHead(m) + " | meeting date: " + Format(m.meetingDate)
  {
    var meetingDate := Format(m.meetingDate);
    FormatIsSentinelText(m.meetingDate);
    if meetingDate != SentinelText then InfoHead(m) + " | meeting date: " + meetingDate else InfoHead(m)
  }

  function InfoHead(m: MeetingRecord): string {
    Link("https://github.com/" + m.coordinator, "@" + m.coordinator)
      + " | issue date: " + Format(m.issueDate) + " | status: *" + m.state + "*"
  }

  function TitleBlock(m: MeetingRecord): Block {
    Block(Section, Link(m.issue, "*" + m.title + "*"))
  }

  /** The recording link, present only when there is a recording. */
  function RecordingBlocks(m: MeetingRecord): (r: seq<Block>)
    ensures |r| == if m.recording == "" then 0 else 1
  {
    if m.recording != "" then [Block(Context, Link(m.recording, "Meeting recording"))] else []
  }

  /** The blocks of a meeting, given its info line and decoded papers: title, info line,
      optional recording link, then one block per paper. */
  function Blocks(m: MeetingRecord, info: string, papers: seq<Paper>): (r: seq<Block>)
    ensures |r| == 2 + |RecordingBlocks(m)| + |papers|
    ensures r[0] == TitleBlock(m) && r[1] == Block(Context, info)
    ensures forall i :: 0 <= i < |RecordingBlocks(m)| ==> r[2 + i] == RecordingBlocks(m)[i]
    ensures forall i :: 0 <= i < |papers| ==> r[2 + |RecordingBlocks(m)| + i] == PaperBlocks(m.title, papers)[i]
  {
    [TitleBlock(m), Block(Context, info)] + RecordingBlocks(m) + PaperBlocks(m.title, papers)
  }

  /** `JournalClubMeeting::as_slack_msg`. `None` when a stored paper does not decode
      (cio unwraps the parse and panics). */
  function MeetingBlocks(m: MeetingRecord): (r: Option<seq<Block>>)
    ensures r.Some? <==> DecodeAll(m.papers).Some?
    ensures r.Some? ==> r.value == Blocks(m, MeetingInfo(m), DecodeAll(m.papers).value)
  {
    match DecodeAll(m.papers)
    case None => None
    case Some(papers) => Some(Blocks(m, MeetingInfo(m), papers))
  }
}

=== FILE: meeting_dates.dfy ===
/** The journal-club date codec (`meeting_date_format` in cio/src/journal_clubs.rs):
    calendar dates written as chrono's `%m/%d/%Y`, with the date 1969-01-01 standing
    for "no date" and written as the empty string. */
module MeetingDates {
  import opened Wrappers
  import opened Strings
  import opened Decimal

  /** The year range of chrono's `NaiveDate`. */
  const MinYear := -262144
  const MaxYear := 262143

  datatype Date = Date(year: int, month: int, day: int)

  /** Proleptic Gregorian leap years (Dafny's `%` is Euclidean, as divisibility needs). */
  predicate IsLeapYear(y: int) {
    y % 4 == 0 && (y % 100 != 0 || y % 400 == 0)
  }

  function DaysInMonth(y: int, m: int): int {
    if m == 2 then (if IsLeapYear(y) then 29 else 28)
    else if m == 4 || m == 6 || m == 9 || m == 11 then 30
    else 31
  }

  predicate IsValid(d: Date) {
    && MinYear <= d.year <= MaxYear
    && 1 <= d.month <= 12
    && 1 <= d.day <= DaysInMonth(d.year, d.month)
  }

  /** chrono's `NaiveDate`: only real calendar dates exist. */
  type NaiveDate = d: Date | IsValid(d) witness Date(1969, 1, 1)

  /** The "no date" sentinel and its text, `DEFAULT_DATE`. */
  const Sentinel: NaiveDate := Date(1969, 1, 1)
  const SentinelText := "01/01/1969"

  datatype DateError =
    | Malformed   // the text does not have the shape `%m/%d/%Y`
    | NotADate    // the shape is right but the numbers name no calendar date

  /** `%m` and `%d`: two digits, zero padded. */
  function Pad2(n: nat): (r: string)
    requires n < 100
    ensures |r| == 2 && AllDigits(r) && Value(r) == n
  {
    var r := [DigitChar(n / 10), DigitChar(n % 10)];
    assert r[..1] == [DigitChar(n / 10)];
    assert Value(r[..1]) == n / 10 by {
      assert r[..1][..0] == [];
    }
    r
  }

  /** `%Y`: four digits, zero padded, for years 0 to 9999; any other year gets an
      explicit sign before at least four digits. */
  function FormatYear(y: int): string {
    if 0 <= y < 10000 then ZeroPad(NatToString(y), 4)
    else (if y < 0 then "-" else "+") + ZeroPad(NatToString(if y < 0 then -y else y), 4)
  }

  /** A zero-padded decimal keeps its value, and is exactly `w` long when the
      number has at most `w` digits. */
  lemma PaddedDigits(n: nat, w: nat)
    requires 1 <= w && n < Pow10(w)
    ensures AllDigits(ZeroPad(NatToString(n), w))
    ensures |ZeroPad(NatToString(n), w)| == w
    ensures Value(ZeroPad(NatToString(n), w)) == n
  {
    NatToStringLength(n, w);
    var k: nat :| ZeroPad(NatToString(n), w) == Zeros(k) + NatToString(n);
    ValueIgnoresLeadingZeros(k, NatToString(n));
  }

  lemma PaddedDigitsAnyWidth(n: nat, w: nat)
    ensures AllDigits(ZeroPad(NatToString(n), w))
    ensures |ZeroPad(NatToString(n), w)| >= 1
    ensures Value(ZeroPad(NatToString(n), w)) == n
  {
    var k: nat :| ZeroPad(NatToString(n), w) == Zeros(k) + NatToString(n);
    ValueIgnoresLeadingZeros(k, NatToString(n));
  }

  /** The `%m/%d/%Y` text of a year, month and day. */
  function Text(y: int, m: nat, d: nat): string
    requires m < 100 && d < 100
  {
    Pad2(m) + ("/" + (Pad2(d) + ("/" + FormatYear(y))))
  }

  /** What the characters of `Text` mean: the month and day in two digits each,
      a '/' after each, then the year. */
  lemma TextFields(y: int, m: nat, d: nat)
    requires m < 100 && d < 100
    ensures |Text(y, m, d)| >= 10 && Text(y, m, d)[2] == '/' && Text(y, m, d)[5] == '/'
    ensures AllDigits(Text(y, m, d)[..2]) && Value(Text(y, m, d)[..2]) == m
    ensures AllDigits(Text(y, m, d)[3..5]) && Value(Text(y, m, d)[3..5]) == d
    ensures Text(y, m, d)[6..] == FormatYear(y)
  {
    var a, b, c := Pad2(m), Pad2(d), FormatYear(y);
    YearText(y);
    var r := a + ("/" + (b + ("/" + c)));
    assert r == Text(y, m, d);
    assert r[..2] == a;
    assert r[3..5] == b;
    assert r[6..] == c;
  }

  /** `%Y` is four digits for the years 0 to 9999 and a sign before at least four
      digits otherwise. */
  lemma YearText(y: int)
    ensures |FormatYear(y)| >= 4
    ensures 0 <= y < 10000 ==> |FormatYear(y)| == 4 && AllDigits(FormatYear(y)) && Value(FormatYear(y)) == y
    ensures y < 0 ==> FormatYear(y)[0] == '-'
    ensures y >= 10000 ==> FormatYear(y)[0] == '+'
  {
    if 0 <= y < 10000 {
      assert Pow10(4) == 10000;
      PaddedDigits(y, 4);
    } else {
      var mag: nat := if y < 0 then -y else y;
      PaddedDigitsAnyWidth(mag, 4);
    }
  }

  /** chrono's `format("%m/%d/%Y")`: zero-padded month and day, '/' separators, then
      the year. */
  function Format(d: NaiveDate): string {
    Text(d.year, d.month, d.day)
  }

  /** The layout of `Format`: two digits of month, '/', two digits of day, '/', then
      four digits of year for the years 0 to 9999 and a signed year otherwise. */
  lemma FormatLayout(d: NaiveDate)
    ensures |Format(d)| >= 10 && Format(d)[2] == '/' && Format(d)[5] == '/'
    ensures AllDigits(Format(d)[..2]) && Value(Format(d)[..2]) == d.month
    ensures AllDigits(Format(d)[3..5]) && Value(Format(d)[3..5]) == d.day
    ensures 0 <= d.year < 10000 ==> |Format(d)| == 10 && AllDigits(Format(d)[6..]) && Value(Format(d)[6..]) == d.year
    ensures d.year < 0 ==> Format(d)[6] == '-'
    ensures d.year >= 10000 ==> Format(d)[6] == '+'
  {
    TextFields(d.year, d.month, d.day);
    YearText(d.year);
  }

  /** chrono's `%Y` scanner: a '-' or '+' sign before any number of digits,
      or else between one and four unsigned digits. */
  function ScanYear(s: string): (r: Option<(int, string)>)
    ensures r.Some? ==> |r.value.1| < |s|
  {
    if |s| > 0 && (s[0] == '-' || s[0] == '+') then Signed(s[0], ScanNumber(s[1..], |s|))
    else Signed('+', ScanNumber(s, 4))
  }

  /** A scanned magnitude with its sign applied. */
  function Signed(sign: char, n: Option<(nat, string)>): (r: Option<(int, string)>)
    ensures r.Some? <==> n.Some?
    ensures r.Some? ==> r.value.1 == n.value.1
    ensures r.Some? ==> r.value.0 == if sign == '-' then -(n.value.0 as int) else n.value.0 as int
  {
    match n
    case None => None
    case Some((v, rest)) => Some((if sign == '-' then -(v as int) else v as int, rest))
  }

  /** One numeric field of the format: whitespace skipped, then one to `max` digits. */
  function ScanField(s: string, max: nat): Option<(nat, string)> {
    ScanNumber(TrimStart(s), max)
  }

  /** The literal '/' of the format. */
  function ScanSlash(s: string): (r: Option<string>)
    ensures r.Some? <==> |s| > 0 && s[0] == '/'
    ensures r.Some? ==> r.value == s[1..]
  {
    if StartsWith(s, "/") then Some(s[1..]) else None
  }

  /** `NaiveDate::parse_from_str(s, "%m/%d/%Y")`: whitespace is skipped before each
      number, month and day take one or two digits, the separators must be '/',
      nothing may follow the year, and the numbers must name a real date. */
  function Parse(s: string): (r: Result<NaiveDate, DateError>)
    ensures AllWhitespace(s) ==> r == Err(Malformed)
  {
    assert AllWhitespace(s) ==> TrimStart(s) == [] by {
      TrimStartEmptyIffBlank(s);
    }
    match ScanField(s, 2)
    case None => Err(Malformed)
    case Some((m, rest)) => ParseAfterMonth(m, rest)
  }

  /** The rest of `Parse` once the month is read: '/', then the day. */
  function ParseAfterMonth(m: nat, s: string): Result<NaiveDate, DateError> {
    match ScanSlash(s)
    case None => Err(Malformed)
    case Some(t) =>
      match ScanField(t, 2)
      case None => Err(Malformed)
      case Some((d, rest)) => ParseAfterDay(m, d, rest)
  }

  /** The rest of `Parse` once the day is read: '/', then the year and the end of input. */
  function ParseAfterDay(m: nat, d: nat, s: string): Result<NaiveDate, DateError> {
    match ScanSlash(s)
    case None => Err(Malformed)
    case Some(t) =>
      match ScanYear(TrimStart(t))
      case None => Err(Malformed)
      case Some((y, rest)) => if rest != [] then Err(Malformed) else FromFields(y, m, d)
  }

  /** chrono's final check that the scanned numbers name a real date. */
  function FromFields(y: int, m: int, d: int): (r: Result<NaiveDate, DateError>)
    ensures r.Ok? <==> IsValid(Date(y, m, d))
    ensures r.Ok? ==> r.value == Date(y, m, d)
  {
    var date := Date(y, m, d);
    if IsValid(date) then Ok(date) else Err(NotADate)
  }

  lemma TrimStartNonBlank(s: string)
    requires |s| > 0 && !IsWhitespace(s[0])
    ensures TrimStart(s) == s
  {
  }

  /** One to four unsigned digits are read back as their value by the `%Y` scanner. */
  lemma ScanYearDigits(t: string)
    requires AllDigits(t) && 1 <= |t| <= 4
    ensures ScanYear(t) == Some((Value(t) as int, []))
  {
    ScanNumberAll(t, 4);
  }

  /** A sign before any number of digits is read back as the signed value. */
  lemma {:induction false} ScanYearSignedDigits(sign: char, ds: string)
    requires sign == '-' || sign == '+'
    requires AllDigits(ds) && 1 <= |ds|
    ensures ScanYear([sign] + ds) == Some((if sign == '-' then -(Value(ds) as int) else Value(ds) as int, []))
  {
    var t := [sign] + ds;
    assert t[1..] == ds;
    ScanNumberAll(ds, |t|);
    ScanYearSignedMagnitude(sign, ds, Value(ds));
  }

  /** A sign followed by text the scanner reads in full as `n` is read back as `n`
      with that sign. */
  lemma ScanYearSignedMagnitude(sign: char, ds: string, n: nat)
    requires sign == '-' || sign == '+'
    requires ScanNumber(ds, 1 + |ds|) == Some((n, []))
    ensures ScanYear([sign] + ds) == Some((if sign == '-' then -(n as int) else n as int, []))
  {
    assert ([sign] + ds)[1..] == ds;
  }

  lemma ScanYearUnsigned(y: int)
    requires 0 <= y < 10000
    ensures ScanYear(FormatYear(y)) == Some((y, []))
  {
    YearText(y);
    ScanYearDigits(FormatYear(y));
  }

  lemma ScanYearSigned(y: int)
    requires y < 0 || y >= 10000
    ensures ScanYear(FormatYear(y)) == Some((y, []))
  {
    var mag: nat := if y < 0 then -y else y;
    var ds := ZeroPad(NatToString(mag), 4);
    PaddedDigitsAnyWidth(mag, 4);
    assert FormatYear(y) == [if y < 0 then '-' else '+'] + ds;
    ScanYearSignedDigits(if y < 0 then '-' else '+', ds);
  }

  lemma ScanFieldPadded(n: nat, rest: string)
    requires n < 100 && |rest| > 0 && rest[0] == '/'
    ensures ScanField(Pad2(n) + rest, 2) == Some((n, rest))
  {
    TrimStartNonBlank(Pad2(n) + rest);
    ScanNumberOfPrefix(Pad2(n), rest, 2);
  }

  lemma YearStartsNonBlank(y: int)
    ensures |FormatYear(y)| > 0 && !IsWhitespace(FormatYear(y)[0])
  {
    YearText(y);
    if 0 <= y < 10000 {
      assert IsDigit(FormatYear(y)[0]);
    }
  }

  lemma ScanYearOfFormat(y: int)
    ensures ScanYear(FormatYear(y)) == Some((y, []))
  {
    if 0 <= y < 10000 {
      ScanYearUnsigned(y);
    } else {
      ScanYearSigned(y);
    }
  }

  lemma ScanYearText(y: int)
    ensures ScanYear(TrimStart(FormatYear(y))) == Some((y, []))
  {
    YearStartsNonBlank(y);
    TrimStartNonBlank(FormatYear(y));
    ScanYearOfFormat(y);
  }

  lemma ParseAfterDayText(y: int, m: nat, d: nat)
    ensures ParseAfterDay(m, d, "/" + FormatYear(y)) == FromFields(y, m, d)
  {
    var s := "/" + FormatYear(y);
    assert ScanSlash(s) == Some(FormatYear(y));
    ScanYearText(y);
  }

  lemma ParseAfterMonthText(y: int, m: nat, d: nat)
    requires d < 100
    ensures ParseAfterMonth(m, "/" + (Pad2(d) + ("/" + FormatYear(y)))) == FromFields(y, m, d)
  {
    var s2 := "/" + FormatYear(y);
    var s := "/" + (Pad2(d) + s2);
    assert ScanSlash(s) == Some(Pad2(d) + s2);
    ScanFieldPadded(d, s2);
    ParseAfterDayText(y, m, d);
  }

  /** The scanner reads back the three numbers of a `%m/%d/%Y` text. */
  lemma ParseFieldsText(y: int, m: nat, d: nat)
    requires m < 100 && d < 100
    ensures Parse(Text(y, m, d)) == FromFields(y, m, d)
  {
    var s1 := "/" + (Pad2(d) + ("/" + FormatYear(y)));
    ScanFieldPadded(m, s1);
    ParseAfterMonthText(y, m, d);
  }

  /** Round trip of the date format: parsing what `Format` writes gives the date back. */
  lemma ParseFormat(d: NaiveDate)
    ensures Parse(Format(d)) == Ok(d)
  {
    ParseFieldsText(d.year, d.month, d.day);
  }

  /** Different dates are written differently. */
  lemma FormatInjective(d1: NaiveDate, d2: NaiveDate)
    ensures Format(d1) == Format(d2) <==> d1 == d2
  {
    ParseFormat(d1);
    ParseFormat(d2);
  }

  lemma Year1969()
    ensures FormatYear(1969) == "1969"
  {
    assert NatToString(1969) == "1969" by {
      assert NatToString(1) == "1";
      assert NatToString(19) == "19";
      assert NatToString(196) == "196";
    }
    assert ZeroPad("1969", 4) == "1969";
  }

  lemma Pad2One()
    ensures Pad2(1) == "01"
  {
    assert DigitChar(0) == '0' && DigitChar(1) == '1';
  }

  lemma TextSentinel()
    ensures Text(1969, 1, 1) == SentinelText
  {
    Year1969();
    Pad2One();
  }

  lemma FormatSentinel()
    ensures Format(Sentinel) == SentinelText
  {
    TextSentinel();
  }

  /** The sentinel text parses to the sentinel date. */
  lemma ParseSentinelText()
    ensures Parse(SentinelText) == Ok(Sentinel)
  {
    FormatSentinel();
    ParseFormat(Sentinel);
  }

  /** The date is written as text exactly when it is not the sentinel. */
  lemma FormatIsSentinelText(d: NaiveDate)
    ensures Format(d) == SentinelText <==> d == Sentinel
  {
    FormatSentinel();
    FormatInjective(d, Sentinel);
  }

  /** `meeting_date_format::serialize`: `%m/%d/%Y`, except that the sentinel date is
      written as the empty string. */
  function Serialize(d: NaiveDate): (r: string)
    ensures r == "" <==> d == Sentinel
    ensures r != "" ==> r == Format(d)
  {
    FormatIsSentinelText(d);
    var s := Format(d);
    if s == SentinelText then "" else s
  }

  /** `meeting_date_format::deserialize`: blank or whitespace-only text stands for the
      sentinel; anything else must parse as `%m/%d/%Y`. */
  function Deserialize(s: string): (r: Result<NaiveDate, DateError>)
    ensures AllWhitespace(s) ==> r == Ok(Sentinel)
    ensures !AllWhitespace(s) ==> r == Parse(s)
  {
    TrimEmptyIffBlank(s);
    ParseSentinelText();
    if Trim(s) == [] then Parse(SentinelText) else Parse(s)
  }

  /** Round trip of the codec over every date, the sentinel included. */
  lemma DeserializeSerialize(d: NaiveDate)
    ensures Deserialize(Serialize(d)) == Ok(d)
  {
    if d != Sentinel {
      var f := Format(d);
      FormatLayout(d);
      assert IsDigit(f[..2][0]);
      ParseFormat(d);
    }
  }
}

=== FILE: paper_codec.dfy ===
/** A journal-club paper and the text it is stored as inside a meeting's `papers`
    column. cio writes each paper with `serde_json::to_string_pretty`
    and reads it back with `serde_json::from_str`; the model replaces JSON with a
    length-prefixed encoding (lengths in unary) that keeps the one property the program relies on:
    decoding gives back exactly the paper that was encoded. */
module PaperCodec {
  import opened Wrappers

  /** `NewJournalClubPaper`. */
  datatype Paper = Paper(title: string, link: string, meeting: string, linkToMeeting: seq<string>)

  /** A count or length written in unary: one '*' per unit, then ':'. */
  function Header(n: nat): string {
    seq(n, _ => '*') + ":"
  }

  /** Reads a `Header`, counting the '*'s before the ':' onto `acc`. */
  function ReadCount(s: string, acc: nat): (r: Option<(nat, string)>)
    ensures r.Some? ==> |r.value.1| < |s|
  {
    if |s| == 0 then None
    else if s[0] == '*' then ReadCount(s[1..], acc + 1)
    else if s[0] == ':' then Some((acc, s[1..]))
    else None
  }

  function ReadHeader(s: string): (r: Option<(nat, string)>)
    ensures r.Some? ==> |r.value.1| < |s|
  {
    ReadCount(s, 0)
  }

  lemma {:induction false} ReadCountOf(k: nat, acc: nat, rest: string)
    ensures ReadCount(seq(k, _ => '*') + ":" + rest, acc) == Some((acc + k, rest))
  {
    var s := seq(k, _ => '*') + ":" + rest;
    if k > 0 {
      assert s[1..] == seq(k - 1, _ => '*') + ":" + rest;
      ReadCountOf(k - 1, acc + 1, rest);
    } else {
      assert s == ":" + rest;
    }
  }

  lemma ReadHeaderOf(n: nat, rest: string)
    ensures ReadHeader(Header(n) + rest) == Some((n, rest))
  {
    ReadCountOf(n, 0, rest);
  }

  function EncodeString(x: string): string {
    Header(|x|) + x
  }

  function ReadString(s: string): (r: Option<(string, string)>)
    ensures r.Some? ==> |r.value.1| < |s|
  {
    match ReadHeader(s)
    case None => None
    case Some((n, t)) => if |t| < n then None else Some((t[..n], t[n..]))
  }

  lemma ReadStringOf(x: string, rest: string)
    ensures ReadString(EncodeString(x) + rest) == Some((x, rest))
  {
    assert EncodeString(x) + rest == Header(|x|) + (x + rest);
    ReadHeaderOf(|x|, x + rest);
    assert (x + rest)[..|x|] == x && (x + rest)[|x|..] == rest;
  }

  function EncodeItems(xs: seq<string>): string {
    if xs == [] then "" else EncodeString(xs[0]) + EncodeItems(xs[1..])
  }

  function ReadItems(s: string, count: nat): (r: Option<(seq<string>, string)>)
    ensures r.Some? ==> |r.value.0| == count
    decreases count
  {
    if count == 0 then Some(([], s))
    else
      match ReadString(s)
      case None => None
      case Some((x, t)) =>
        match ReadItems(t, count - 1)
        case None => None
        case Some((xs, u)) => Some(([x] + xs, u))
  }

  lemma {:induction false} ReadItemsOf(xs: seq<string>, rest: string)
    ensures ReadItems(EncodeItems(xs) + rest, |xs|) == Some((xs, rest))
  {
    if xs == [] {
      assert EncodeItems(xs) + rest == rest;
    } else {
      var t := EncodeItems(xs[1..]) + rest;
      assert EncodeItems(xs) + rest == EncodeString(xs[0]) + t;
      ReadStringOf(xs[0], t);
      ReadItemsOf(xs[1..], rest);
      assert ReadItems(t, |xs| - 1) == Some((xs[1..], rest));
      assert [xs[0]] + xs[1..] == xs;
    }
  }

  /** The stored text of a paper: its three text fields, then its meeting links. */
  function Encode(p: Paper): string {
    EncodeString(p.title) + (EncodeString(p.link) + (EncodeString(p.meeting)
      + (Header(|p.linkToMeeting|) + EncodeItems(p.linkToMeeting))))
  }

  /** Reads a stored paper back; `None` where `serde_json::from_str(..).unwrap()` panics. */
  function Decode(s: string): Option<Paper> {
    match ReadString(s)
    case None => None
    case Some((title, s1)) =>
      match ReadString(s1)
      case None => None
      case Some((link, s2)) =>
        match ReadString(s2)
        case None => None
        case Some((meeting, s3)) =>
          match ReadLinks(s3)
          case None => None
          case Some(links) => Some(Paper(title, link, meeting, links))
  }

  /** The counted list of meeting links that ends a stored paper; nothing may follow it. */
  function ReadLinks(s: string): Option<seq<string>> {
    match ReadHeader(s)
    case None => None
    case Some((n, t)) =>
      match ReadItems(t, n)
      case None => None
      case Some((links, u)) => if u != [] then None else Some(links)
  }

  lemma ReadLinksOf(links: seq<string>)
    ensures ReadLinks(Header(|links|) + EncodeItems(links)) == Some(links)
  {
    ReadHeaderOf(|links|, EncodeItems(links));
    ReadItemsOf(links, []);
    assert EncodeItems(links) + [] == EncodeItems(links);
  }

  /** Round trip of the stored paper text. */
  lemma DecodeEncode(p: Paper)
    ensures Decode(Encode(p)) == Some(p)
  {
    var tail := Header(|p.linkToMeeting|) + EncodeItems(p.linkToMeeting);
    var s2 := EncodeString(p.meeting) + tail;
    var s1 := EncodeString(p.link) + s2;
    assert Encode(p) == EncodeString(p.title) + s1;
    ReadStringOf(p.title, s1);
    assert ReadString(Encode(p)) == Some((p.title, s1));
    ReadStringOf(p.link, s2);
    assert ReadString(s1) == Some((p.link, s2));
    ReadStringOf(p.meeting, tail);
    assert ReadString(s2) == Some((p.meeting, tail));
    ReadLinksOf(p.linkToMeeting);
  }

  /** `ps` is what the stored texts decode to, one for one. */
  predicate DecodesTo(stored: seq<string>, ps: seq<Paper>) {
    |ps| == |stored| && forall i :: 0 <= i < |stored| ==> Decode(stored[i]) == Some(ps[i])
  }

  /** Decodes every stored paper in order; `None` as soon as one does not decode. */
  function DecodeAll(stored: seq<string>): (r: Option<seq<Paper>>)
    ensures r.Some? ==> DecodesTo(stored, r.value)
    ensures r.None? ==> exists i :: 0 <= i < |stored| && Decode(stored[i]).None?
  {
    if stored == [] then Some([])
    else
      var head := Decode(stored[0]);
      if head.None? then None
      else
        var tail := DecodeAll(stored[1..]);
        if tail.None? then
          assert exists i :: 0 <= i < |stored| && Decode(stored[i]).None? by {
            var j :| 0 <= j < |stored| - 1 && Decode(stored[1..][j]).None?;
            assert stored[1..][j] == stored[j + 1];
          }
          None
        else
          var ps := [head.value] + tail.value;
          assert DecodesTo(stored, ps) by {
            forall i | 0 < i < |stored| ensures Decode(stored[i]) == Some(ps[i]) {
              assert stored[i] == stored[1..][i - 1] && ps[i] == tail.value[i - 1];
            }
          }
          Some(ps)
  }

  /** Stores every paper, in order. */
  function EncodeAll(ps: seq<Paper>): (r: seq<string>)
    ensures |r| == |ps|
  {
    seq(|ps|, i requires 0 <= i < |ps| => Encode(ps[i]))
  }

  /** Round trip of a whole list of stored papers. */
  lemma DecodeAllEncodeAll(ps: seq<Paper>)
    ensures DecodeAll(EncodeAll(ps)) == Some(ps)
  {
    var stored := EncodeAll(ps);
    forall i | 0 <= i < |ps|
      ensures Decode(stored[i]) == Some(ps[i])
    {
      DecodeEncode(ps[i]);
    }
    var back := DecodeAll(stored).value;
    assert forall i :: 0 <= i < |ps| ==> back[i] == ps[i];
    assert back == ps;
  }

  /** Different papers are stored as different texts. */
  lemma EncodeInjective(p: Paper, q: Paper)
    ensures Encode(p) == Encode(q) <==> p == q
  {
    DecodeEncode(p);
    DecodeEncode(q);
  }
}

=== FILE: rfds.dfy ===
/** The generated fields of an RFD (`NewRFD::expand`): the zero-padded number, the
    full name, the short and rendered links, and the branch and directory its
    contents are read from. */
module Rfds {
  import opened Decimal
  import opened Strings

  /** `number_string`: the decimal of the number with '0's put in front until it is
      at least four characters long (before the '-' of a negative number, as the
      program does). */
  function NumberString(number: int): (r: string)
    ensures |r| >= 4
    ensures exists k: nat :: r == Zeros(k) + IntToString(number)
  {
    var t := IntToString(number);
    var k: nat := if |t| < 4 then 4 - |t| else 0;
    assert ZeroPad(t, 4) == Zeros(k) + t;
    ZeroPad(t, 4)
  }

  /** The padding loop of `expand`: put '0' in front while shorter than four. */
  method PadNumber(number: int) returns (s: string)
    ensures s == NumberString(number)
  {
    s := PadFour(IntToString(number));
  }

  method PadFour(t: string) returns (s: string)
    ensures s == ZeroPad(t, 4)
  {
    var k := 0;
    s := t;
    while |s| < 4
      invariant s == Zeros(k) + t && |s| == k + |t|
      invariant |t| < 4 ==> |s| <= 4
      invariant |t| >= 4 ==> k == 0
      decreases 4 - |s|
    {
      PrependZero(k, t);
      s := "0" + s;
      k := k + 1;
    }
  }

  lemma PrependZero(k: nat, t: string)
    ensures "0" + (Zeros(k) + t) == Zeros(k + 1) + t
  {
    assert "0" + Zeros(k) == Zeros(k + 1);
  }

  /** For a number from 0 on, the padded string reads back as the number. */
  lemma NumberStringValue(number: nat)
    ensures AllDigits(NumberString(number)) && Value(NumberString(number)) == number
  {
    var k: nat :| NumberString(number) == Zeros(k) + NatToString(number);
    ValueIgnoresLeadingZeros(k, NatToString(number));
  }

  /** Four digits or more are left alone; fewer are padded to exactly four. */
  lemma NumberStringLength(number: nat)
    ensures number >= 1000 ==> NumberString(number) == NatToString(number)
    ensures number < 1000 ==> |NumberString(number)| == 4
  {
    NatToStringLength(number, 3);
    assert Pow10(3) == 1000;
  }

  /** Two different numbers from 0 on never share a padded string. */
  lemma NumberStringInjective(a: nat, b: nat)
    ensures NumberString(a) == NumberString(b) <==> a == b
  {
    NumberStringValue(a);
    NumberStringValue(b);
  }

  /** The fields `expand` fills in, plus the branch and directory it reads the RFD's
      contents from. */
  datatype Expanded = Expanded(
    numberString: string,
    name: string,
    shortLink: string,
    renderedLink: string,
    branch: string,
    rfdDir: string)

  const RenderedBase := "https://rfd.shared.oxide.computer/rfd/"

  /** A padded number starts with a digit or '-', so it is never the word "master". */
  lemma NumberStringNotMaster(number: int)
    ensures NumberString(number) != "master"
  {
    var s := NumberString(number);
    var k: nat :| s == Zeros(k) + IntToString(number);
    var t := IntToString(number);
    assert s[0] == '0' || s[0] == '-' || IsDigit(s[0]) by {
      if k > 0 {
        assert s[0] == Zeros(k)[0];
      } else {
        assert s == t;
        assert t[0] == '-' || IsDigit(t[0]);
      }
    }
    assert s[0] != "master"[0];
  }

  /** `NewRFD::expand` without the GitHub reads: the padded number, the name and the
      links built from it, and the branch, which is "master" exactly when the link
      names it. */
  function Expand(number: int, title: string, link: string): (e: Expanded)
    ensures e.numberString == NumberString(number)
    ensures e.name == "RFD " + IntToString(number) + " " + title
    ensures e.shortLink == "https://" + IntToString(number) + ".rfd.oxide.computer"
    ensures e.branch == "master" <==> Contains(link, "/master/")
    ensures !Contains(link, "/master/") ==> e.branch == e.numberString
    ensures StartsWith(e.renderedLink, RenderedBase)
    ensures e.renderedLink[|RenderedBase|..] == e.numberString
    ensures StartsWith(e.rfdDir, "/rfd/") && e.rfdDir[|"/rfd/"|..] == e.numberString
  {
    var numberString := NumberString(number);
    var rendered := RenderedBase + numberString;
    var rfdDir := "/rfd/" + numberString;
    assert rendered[..|RenderedBase|] == RenderedBase && rendered[|RenderedBase|..] == numberString;
    assert rfdDir[|"/rfd/"|..] == numberString;
    NumberStringNotMaster(number);
    Expanded(
      numberString,
      "RFD " + IntToString(number) + " " + title,
      "https://" + IntToString(number) + ".rfd.oxide.computer",
      rendered,
      if Contains(link, "/master/") then "master" else numberString,
      rfdDir)
  }
}

=== FILE: sendgrid.dfy ===
/** The SendGrid v3 mail-send client: the message records and their builders, the
    request every call makes, the status check of `send_mail`, and the fixed
    messages the `send_*` helpers compose. */
module SendGrid {
  import opened Wrappers
  import opened Strings

  // ---------------------------------------------------------------------------
  // Records

  /** An address with an optional display name. */
  datatype Email = Email(email: string, name: Option<string>)

  /** One body part: its MIME type and its text. */
  datatype Content = Content(contentType: string, value: string)

  /** Who receives a message and how it is varied for them. `sendAt` is a `u64`. */
  datatype Personalization = Personalization(
    to: seq<Email>,
    cc: Option<seq<Email>>,
    bcc: Option<seq<Email>>,
    subject: Option<string>,
    headers: Option<map<string, string>>,
    substitutions: Option<map<string, string>>,
    customArgs: Option<map<string, string>>,
    dynamicTemplateData: Option<map<string, string>>,
    sendAt: Option<nat>)

  /** A file sent with a message; `content` is already base64. */
  datatype Attachment = Attachment(
    content: string,
    filename: string,
    mimeType: Option<string>,
    disposition: Option<string>,
    contentId: Option<string>)

  /** A v3 mail-send request body. */
  datatype Message = Message(
    from: Email,
    subject: string,
    personalizations: seq<Personalization>,
    content: Option<seq<Content>>,
    attachments: Option<seq<Attachment>>,
    templateId: Option<string>)

  // ---------------------------------------------------------------------------
  // Defaults (`#[derive(Default)]`)

  function NewEmail(): (e: Email)
    ensures e.email == "" && e.name.None?
  {
    Email("", None)
  }

  function NewContent(): (c: Content)
    ensures c.contentType == "" && c.value == ""
  {
    Content("", "")
  }

  function NewPersonalization(): (p: Personalization)
    ensures p.to == [] && p.cc.None? && p.bcc.None? && p.subject.None?
    ensures p.headers.None? && p.substitutions.None? && p.customArgs.None?
    ensures p.dynamicTemplateData.None? && p.sendAt.None?
  {
    Personalization([], None, None, None, None, None, None, None, None)
  }

  function NewAttachment(): (a: Attachment)
    ensures a.content == "" && a.filename == ""
    ensures a.mimeType.None? && a.disposition.None? && a.contentId.None?
  {
    Attachment("", "", None, None, None)
  }

  function NewMessage(): (m: Message)
    ensures m.from == NewEmail() && m.subject == "" && m.personalizations == []
    ensures m.content.None? && m.attachments.None? && m.templateId.None?
  {
    Message(NewEmail(), "", [], None, None, None)
  }

  // ---------------------------------------------------------------------------
  // Appending to optional lists and merging optional maps

  /** Appending to an optional list: a missing list becomes the one-element list. */
  function Push<T>(list: Option<seq<T>>, x: T): (r: Option<seq<T>>)
    ensures r.Some? && r.value == list.GetOr([]) + [x]
  {
    match list
    case None => Some([x])
    case Some(xs) => Some(xs + [x])
  }

  /** Two appends give the two elements in the order they were added. */
  lemma PushPush<T>(list: Option<seq<T>>, x: T, y: T)
    ensures Push(Push(list, x), y) == Some(list.GetOr([]) + [x, y])
  {
    assert list.GetOr([]) + [x] + [y] == list.GetOr([]) + [x, y];
  }

  /** Merging entries into an optional map: a missing map becomes a copy of the
      entries; an existing one is extended, the new entries replacing old ones. */
  function Extend(h: Option<map<string, string>>, entries: map<string, string>): (r: Option<map<string, string>>)
    ensures r.Some?
    ensures r.value.Keys == h.GetOr(map[]).Keys + entries.Keys
    ensures forall k :: k in entries ==> r.value[k] == entries[k]
    ensures forall k :: k in h.GetOr(map[]) && k !in entries ==> r.value[k] == h.GetOr(map[])[k]
  {
    match h
    case None => Some(entries)
    case Some(current) => Some(current + entries)
  }

  /** Extending twice is extending once by the second batch laid over the first. */
  lemma ExtendExtend(h: Option<map<string, string>>, a: map<string, string>, b: map<string, string>)
    ensures Extend(Extend(h, a), b) == Extend(h, a + b)
  {
    match h
    case None =>
    case Some(c) =>
      var l := (c + a) + b;
      var r := c + (a + b);
      assert l.Keys == r.Keys;
      assert forall k :: k in l ==> l[k] == r[k];
      assert l == r;
  }

  // ---------------------------------------------------------------------------
  // Builders; each changes its own field and nothing else

  function SetFrom(m: Message, from: Email): (r: Message)
    ensures r.from == from && r.(from := m.from) == m
  {
    m.(from := from)
  }

  function SetSubject(m: Message, subject: string): (r: Message)
    ensures r.subject == subject && r.(subject := m.subject) == m
  {
    m.(subject := subject)
  }

  function SetTemplateId(m: Message, templateId: string): (r: Message)
    ensures r.templateId == Some(templateId) && r.(templateId := m.templateId) == m
  {
    m.(templateId := Some(templateId))
  }

  function AddContent(m: Message, c: Content): (r: Message)
    ensures r.content == Some(m.content.GetOr([]) + [c])
    ensures r.(content := m.content) == m
  {
    m.(content := Push(m.content, c))
  }

  function AddPersonalization(m: Message, p: Personalization): (r: Message)
    ensures |r.personalizations| == |m.personalizations| + 1
    ensures r.personalizations[..|m.personalizations|] == m.personalizations
    ensures r.personalizations[|m.personalizations|] == p
    ensures r.(personalizations := m.personalizations) == m
  {
    var ps := m.personalizations + [p];
    assert ps[..|m.personalizations|] == m.personalizations;
    m.(personalizations := ps)
  }

  function AddAttachment(m: Message, a: Attachment): (r: Message)
    ensures r.attachments == Some(m.attachments.GetOr([]) + [a])
    ensures r.(attachments := m.attachments) == m
  {
    m.(attachments := Push(m.attachments, a))
  }

  function SetEmail(e: Email, email: string): (r: Email)
    ensures r.email == email && r.name == e.name
  {
    e.(email := email)
  }

  function SetName(e: Email, name: string): (r: Email)
    ensures r.name == Some(name) && r.email == e.email
  {
    e.(name := Some(name))
  }

  function SetContentType(c: Content, contentType: string): (r: Content)
    ensures r.contentType == contentType && r.value == c.value
  {
    c.(contentType := contentType)
  }

  function SetValue(c: Content, value: string): (r: Content)
    ensures r.value == value && r.contentType == c.contentType
  {
    c.(value := value)
  }

  function AddTo(p: Personalization, e: Email): (r: Personalization)
    ensures |r.to| == |p.to| + 1 && r.to[..|p.to|] == p.to && r.to[|p.to|] == e
    ensures r.(to := p.to) == p
  {
    var to := p.to + [e];
    assert to[..|p.to|] == p.to;
    p.(to := to)
  }

  function AddCc(p: Personalization, e: Email): (r: Personalization)
    ensures r.cc == Some(p.cc.GetOr([]) + [e])
    ensures r.(cc := p.cc) == p
  {
    p.(cc := Push(p.cc, e))
  }

  function AddBcc(p: Personalization, e: Email): (r: Personalization)
    ensures r.bcc == Some(p.bcc.GetOr([]) + [e])
    ensures r.(bcc := p.bcc) == p
  {
    p.(bcc := Push(p.bcc, e))
  }

  function AddHeaders(p: Personalization, headers: map<string, string>): (r: Personalization)
    ensures r.headers.Some?
    ensures r.headers.value.Keys == p.headers.GetOr(map[]).Keys + headers.Keys
    ensures forall k :: k in headers ==> r.headers.value[k] == headers[k]
    ensures forall k :: k in p.headers.GetOr(map[]) && k !in headers ==> r.headers.value[k] == p.headers.GetOr(map[])[k]
    ensures r.(headers := p.headers) == p
  {
    p.(headers := Extend(p.headers, headers))
  }

  function AddDynamicTemplateData(p: Personalization, data: map<string, string>): (r: Personalization)
    ensures r.dynamicTemplateData.Some?
    ensures r.dynamicTemplateData.value.Keys == p.dynamicTemplateData.GetOr(map[]).Keys + data.Keys
    ensures forall k :: k in data ==> r.dynamicTemplateData.value[k] == data[k]
    ensures forall k :: k in p.dynamicTemplateData.GetOr(map[]) && k !in data ==>
      r.dynamicTemplateData.value[k] == p.dynamicTemplateData.GetOr(map[])[k]
    ensures r.(dynamicTemplateData := p.dynamicTemplateData) == p
  {
    p.(dynamicTemplateData := Extend(p.dynamicTemplateData, data))
  }

  function SetBase64Content(a: Attachment, content: string): (r: Attachment)
    ensures r.content == content && r.(content := a.content) == a
  {
    a.(content := content)
  }

  function SetFilename(a: Attachment, filename: string): (r: Attachment)
    ensures r.filename == filename && r.(filename := a.filename) == a
  {
    a.(filename := filename)
  }

  function SetMimeType(a: Attachment, mime: string): (r: Attachment)
    ensures r.mimeType == Some(mime) && r.(mimeType := a.mimeType) == a
  {
    a.(mimeType := Some(mime))
  }

  /** Setting a field twice keeps the second value. */
  lemma SetSubjectTwice(m: Message, a: string, b: string)
    ensures SetSubject(SetSubject(m, a), b) == SetSubject(m, b)
  {
  }

  /** The address and the name of an email are set independently, in either order. */
  lemma SetEmailNameCommute(e: Email, email: string, name: string)
    ensures SetName(SetEmail(e, email), name) == SetEmail(SetName(e, name), email) == Email(email, Some(name))
  {
  }

  /** Adding recipients to different lists commutes. */
  lemma AddToCcCommute(p: Personalization, to: Email, cc: Email)
    ensures AddCc(AddTo(p, to), cc) == AddTo(AddCc(p, cc), to)
  {
  }

  // ---------------------------------------------------------------------------
  // The request every call makes

  const Endpoint := "https://api.sendgrid.com/v3/"

  datatype HttpMethod = Get | Post | Put | Patch | Delete

  /** What `request` hands to the HTTP client: the method, the URL, the two default
      headers in the order they are appended, the query pairs and the JSON body. */
  datatype Request = Request(
    verb: HttpMethod,
    url: string,
    headers: seq<(string, string)>,
    query: Option<seq<(string, string)>>,
    body: Option<Message>)

  /** Why a call fails; in cio each of these is a panic. */
  datatype SendError = InvalidKey | Transport | Rejected(status: int)

  /** A character `HeaderValue::from_str` accepts: tab, or anything from space on
      except DEL. */
  predicate ValidHeaderChar(c: char) {
    c == '\t' || (c >= ' ' && c != '\U{7F}')
  }

  predicate ValidHeaderValue(v: string) {
    forall i :: 0 <= i < |v| ==> ValidHeaderChar(v[i])
  }

  /** `SendGrid::request`: `Err(InvalidKey)` where unwrapping the bearer header
      panics. */
  function BuildRequest(key: string, verb: HttpMethod, path: string, body: Message,
                        query: Option<seq<(string, string)>>): (r: Result<Request, SendError>)
    ensures r.Ok? <==> ValidHeaderValue("Bearer " + key)
    ensures r.Err? ==> r.error == InvalidKey
    ensures r.Ok? ==> r.value.verb == verb && r.value.query == query
    ensures r.Ok? ==> StartsWith(r.value.url, Endpoint) && r.value.url[|Endpoint|..] == path
    ensures r.Ok? ==> (|r.value.headers| == 2
      && r.value.headers[0] == ("Authorization", "Bearer " + key)
      && r.value.headers[1] == ("Content-Type", "application/json"))
    ensures r.Ok? ==> (r.value.body.Some? <==> verb != Get && verb != Delete)
    ensures r.Ok? && r.value.body.Some? ==> r.value.body.value == body
  {
    var bearer := "Bearer " + key;
    if !ValidHeaderValue(bearer) then Err(InvalidKey)
    else
      var url := Endpoint + path;
      assert url[..|Endpoint|] == Endpoint && url[|Endpoint|..] == path;
      Ok(Request(
        verb,
        url,
        [("Authorization", bearer), ("Content-Type", "application/json")],
        query,
        if verb != Get && verb != Delete then Some(body) else None))
  }

  /** The fixed "Bearer " prefix is itself a valid header value, so whether the
      request can be built depends on the key alone. */
  lemma BearerValidIffKeyValid(key: string)
    ensures ValidHeaderValue("Bearer " + key) <==> ValidHeaderValue(key)
  {
    var b := "Bearer " + key;
    if ValidHeaderValue(key) {
      forall i | 0 <= i < |b| ensures ValidHeaderChar(b[i]) {
        if i >= 7 {
          assert b[i] == key[i - 7];
        }
      }
    }
    if ValidHeaderValue(b) {
      forall i | 0 <= i < |key| ensures ValidHeaderChar(key[i]) {
        assert key[i] == b[i + 7];
      }
    }
  }

  /** A key holding a line break can never be sent. */
  lemma NewlineKeyRejected(key: string, i: nat, verb: HttpMethod, path: string, body: Message)
    requires i < |key| && key[i] == '\n'
    ensures BuildRequest(key, verb, path, body, None) == Err(InvalidKey)
  {
    assert ("Bearer " + key)[i + 7] == '\n';
  }

  /** `send_mail`: a POST of the message to `mail/send`; `status` is the response
      status, or `None` when the transport fails. Only 202 Accepted succeeds; the
      result is the request that was sent. */
  function SendMail(key: string, message: Message, status: Option<int>): (r: Result<Request, SendError>)
    ensures r.Ok? <==> ValidHeaderValue(key) && status == Some(202)
    ensures !ValidHeaderValue(key) ==> r == Err(InvalidKey)
    ensures ValidHeaderValue(key) && status.None? ==> r == Err(Transport)
    ensures ValidHeaderValue(key) && status.Some? && status.value != 202 ==> r == Err(Rejected(status.value))
    ensures r.Ok? ==> (r.value.verb == Post && r.value.url == Endpoint + "mail/send"
      && r.value.body == Some(message) && r.value.query.None?)
  {
    BearerValidIffKeyValid(key);
    var req :- BuildRequest(key, Post, "mail/send", message, None);
    match status
    case None => Err(Transport)
    case Some(s) => if s == 202 then Ok(req) else Err(Rejected(s))
  }

  // ---------------------------------------------------------------------------
  // The messages the `send_*` helpers compose

  /** The shape every helper builds: a sender named by its own address, a subject,
      one `text/plain` body and one personalization. */
  function TextMessage(from: string, subject: string, body: string, p: Personalization): (m: Message)
    ensures m.from == Email(from, Some(from)) && m.subject == subject
    ensures m.content == Some([Content("text/plain", body)])
    ensures m.personalizations == [p]
    ensures m.attachments.None? && m.templateId.None?
  {
    var sender := SetName(SetEmail(NewEmail(), from), from);
    var text := SetValue(SetContentType(NewContent(), "text/plain"), body);
    AddPersonalization(AddContent(SetSubject(SetFrom(NewMessage(), sender), subject), text), p)
  }

  /** A personalization with the given `to` and `cc` lists and nothing else. */
  predicate Addressed(p: Personalization, to: seq<Email>, cc: Option<seq<Email>>) {
    p == NewPersonalization().(to := to, cc := cc)
  }

  /** `send_new_user`: from the admin address to the recovery address, copying jess. */
  function NewUserMessage(domain: string, primary: string, recovery: string, message: string): (m: Message)
    ensures |m.personalizations| == 1
    ensures m == TextMessage("admin@" + domain, "Your New Email Account: " + primary, message, m.personalizations[0])
    ensures Addressed(m.personalizations[0], [Email(recovery, Some(recovery))], Some([Email("jess@" + domain, None)]))
  {
    var p := AddCc(AddTo(NewPersonalization(), SetName(SetEmail(NewEmail(), recovery), recovery)),
                   SetEmail(NewEmail(), "jess@" + domain));
    TextMessage("admin@" + domain, "Your New Email Account: " + primary, message, p)
  }

  const ApplicationReceivedText :=
    "Thank you for submitting your application materials! We really appreciate all\n"
    + "the time and thought everyone puts into their application. We will be in touch\n"
    + "within the next couple weeks with more information.\n\nSincerely,\n  The Oxide Team"

  /** `send_received_application`: from careers to the applicant under their name,
      copying careers. */
  function ReceivedApplicationMessage(domain: string, email: string, name: string): (m: Message)
    ensures |m.personalizations| == 1
    ensures m == TextMessage("careers@" + domain, "Oxide Computer Company Application Received!",
                             ApplicationReceivedText, m.personalizations[0])
    ensures Addressed(m.personalizations[0], [Email(email, Some(name))], Some([Email("careers@" + domain, None)]))
  {
    var careers := "careers@" + domain;
    var p := AddCc(AddTo(NewPersonalization(), SetName(SetEmail(NewEmail(), email), name)),
                   SetEmail(NewEmail(), careers));
    TextMessage(careers, "Oxide Computer Company Application Received!", ApplicationReceivedText, p)
  }

  /** `send`: a plain message between two addresses, each named by itself. */
  function PlainMessage(body: string, subject: string, from: string, to: string): (m: Message)
    ensures |m.personalizations| == 1
    ensures m == TextMessage(from, subject, body, m.personalizations[0])
    ensures Addressed(m.personalizations[0], [Email(to, Some(to))], None)
  {
    TextMessage(from, subject, body, AddTo(NewPersonalization(), SetName(SetEmail(NewEmail(), to), to)))
  }

  /** `send_uploaded_zoom_dump`: from drive to jess, copying drive. */
  function ZoomDumpMessage(domain: string, driveUrl: string): (m: Message)
    ensures |m.personalizations| == 1
    ensures m == TextMessage("drive@" + domain, "New Zoom meeting video upload!",
      "Zoom videos have been uploaded to: " + driveUrl + ". You might want to sort them!", m.personalizations[0])
    ensures Addressed(m.personalizations[0], [Email("jess@" + domain, Some("jess@" + domain))],
                      Some([Email("drive@" + domain, None)]))
  {
    var drive := "drive@" + domain;
    var jess := "jess@" + domain;
    var p := AddCc(AddTo(NewPersonalization(), SetName(SetEmail(NewEmail(), jess), jess)),
                   SetEmail(NewEmail(), drive));
    TextMessage(drive, "New Zoom meeting video upload!",
      "Zoom videos have been uploaded to: " + driveUrl + ". You might want to sort them!", p)
  }

  /** `send_new_applicant_notification`: from applications to the all-hands list. */
  function NewApplicantNotification(domain: string, name: string, message: string): (m: Message)
    ensures |m.personalizations| == 1
    ensures m == TextMessage("applications@" + domain, "New Application: " + name, message, m.personalizations[0])
    ensures Addressed(m.personalizations[0], [Email("all@" + domain, Some("all@" + domain))], None)
  {
    var all := "all@" + domain;
    TextMessage("applications@" + domain, "New Application: " + name, message,
      AddTo(NewPersonalization(), SetName(SetEmail(NewEmail(), all), all)))
  }
}

=== FILE: slack.dfy ===
/** The part of a Slack "blocks" message the model keeps: the kind of each block
    and the one markdown text it carries. A `Section` block holds its text directly;
    a `Context` block holds it as its single element. */
module Slack {

  datatype BlockKind = Section | Context

  datatype Block = Block(kind: BlockKind, text: string)

  /** `"<" + target + "|" + caption + ">"`, Slack's link markup. */
  function Link(target: string, caption: string): string {
    "<" + target + "|" + caption + ">"
  }
}

=== FILE: strings.dfy ===
/** The handful of Rust `str` operations the core leans on, over `seq<char>`:
    `trim`, `to_lowercase`, `contains`, `starts_with`, `trim_start_matches`,
    `trim_end_matches` and `replace(c, "")`. */
module Strings {

  /** Unicode White_Space, the set that `str::trim` removes. */
  predicate IsWhitespace(c: char) {
    || c == ' '
    || ('\t' <= c <= '\r')
    || c == '\U{0085}' || c == '\U{00A0}' || c == '\U{1680}'
    || ('\U{2000}' <= c <= '\U{200A}')
    || c == '\U{2028}' || c == '\U{2029}' || c == '\U{202F}' || c == '\U{205F}' || c == '\U{3000}'
  }

  predicate AllWhitespace(s: string) {
    forall i :: 0 <= i < |s| ==> IsWhitespace(s[i])
  }

  /** `str::trim_start`: drop the leading whitespace. */
  function TrimStart(s: string): (r: string)
    ensures |r| <= |s| && r == s[|s| - |r|..]
    ensures r == [] || !IsWhitespace(r[0])
    ensures forall i :: 0 <= i < |s| - |r| ==> IsWhitespace(s[i])
  {
    if |s| > 0 && IsWhitespace(s[0]) then
      var r := TrimStart(s[1..]);
      assert forall i :: 1 <= i < |s| ==> s[i] == s[1..][i - 1];
      r
    else s
  }

  /** `str::trim_end`: drop the trailing whitespace. */
  function TrimEnd(s: string): (r: string)
    ensures |r| <= |s| && r == s[..|r|]
    ensures r == [] || !IsWhitespace(r[|r| - 1])
    ensures forall i :: |r| <= i < |s| ==> IsWhitespace(s[i])
  {
    if |s| > 0 && IsWhitespace(s[|s| - 1]) then
      var r := TrimEnd(s[..|s| - 1]);
      assert forall i :: 0 <= i < |s| - 1 ==> s[i] == s[..|s| - 1][i];
      r
    else s
  }

  /** `r` occurs in `s` starting at index `a`. */
  predicate OccursAt(s: string, a: int, r: string) {
    0 <= a && a + |r| <= |s| && s[a..a + |r|] == r
  }

  /** `str::trim`: whitespace removed at both ends. */
  function Trim(s: string): (r: string)
    ensures exists a :: OccursAt(s, a, r)
    ensures r == [] || (!IsWhitespace(r[0]) && !IsWhitespace(r[|r| - 1]))
  {
    var t := TrimStart(s);
    var r := TrimEnd(t);
    PrefixOfSuffix(s, t, r);
    r
  }

  /** A string that neither starts nor ends with whitespace trims to itself. */
  lemma TrimUntouched(s: string)
    requires |s| > 0 && !IsWhitespace(s[0]) && !IsWhitespace(s[|s| - 1])
    ensures Trim(s) == s
  {
    assert TrimStart(s) == s;
    assert TrimEnd(s) == s;
  }

  /** A prefix `r` of a suffix `t` of `s` occurs in `s` where `t` starts. */
  lemma PrefixOfSuffix(s: string, t: string, r: string)
    requires |t| <= |s| && t == s[|s| - |t|..]
    requires |r| <= |t| && r == t[..|r|]
    ensures OccursAt(s, |s| - |t|, r)
    ensures r != [] ==> r[0] == t[0]
  {
  }

  lemma {:induction false} TrimStartEmptyIffBlank(s: string)
    ensures TrimStart(s) == [] <==> AllWhitespace(s)
  {
    if |s| > 0 && IsWhitespace(s[0]) {
      TrimStartEmptyIffBlank(s[1..]);
      assert AllWhitespace(s) <==> AllWhitespace(s[1..]) by {
        if AllWhitespace(s[1..]) {
          assert forall i :: 1 <= i < |s| ==> s[i] == s[1..][i - 1];
        }
      }
    }
  }

  lemma {:induction false} TrimEndEmptyIffBlank(s: string)
    ensures TrimEnd(s) == [] <==> AllWhitespace(s)
  {
    if |s| > 0 && IsWhitespace(s[|s| - 1]) {
      TrimEndEmptyIffBlank(s[..|s| - 1]);
      assert AllWhitespace(s) <==> AllWhitespace(s[..|s| - 1]) by {
        if AllWhitespace(s[..|s| - 1]) {
          assert forall i :: 0 <= i < |s| - 1 ==> s[i] == s[..|s| - 1][i];
        }
      }
    }
  }

  /** A string trims to nothing exactly when every character is whitespace. */
  lemma TrimEmptyIffBlank(s: string)
    ensures Trim(s) == [] <==> AllWhitespace(s)
  {
    TrimStartEmptyIffBlank(s);
    TrimEndEmptyIffBlank(TrimStart(s));
  }

  /** ASCII lower-casing of one character. */
  function LowerChar(c: char): char {
    if 'A' <= c <= 'Z' then (c as int - 'A' as int + 'a' as int) as char else c
  }

  /** `str::to_lowercase`, restricted to the ASCII letters. */
  function Lower(s: string): (r: string)
    ensures |r| == |s|
    ensures forall i :: 0 <= i < |s| ==> r[i] == LowerChar(s[i])
    ensures forall i :: 0 <= i < |r| ==> !('A' <= r[i] <= 'Z')
  {
    seq(|s|, i requires 0 <= i < |s| => LowerChar(s[i]))
  }

  predicate StartsWith(s: string, p: string) {
    |p| <= |s| && s[..|p|] == p
  }

  /** A prefix of `a` is a prefix of anything that starts with `a`. */
  lemma StartsWithAppend(a: string, b: string, p: string)
    requires StartsWith(a, p)
    ensures StartsWith(a + b, p)
  {
    assert (a + b)[..|p|] == a[..|p|];
  }

  /** `str::contains` with a string pattern. */
  predicate Contains(s: string, p: string)
    decreases |s|
  {
    StartsWith(s, p) || (|s| > 0 && Contains(s[1..], p))
  }

  /** `Contains` agrees with the positional definition of a substring. */
  lemma {:induction false} ContainsAt(s: string, p: string)
    ensures Contains(s, p) <==> exists i :: OccursAt(s, i, p)
  {
    if |s| == 0 {
      if Contains(s, p) {
        assert OccursAt(s, 0, p);
      }
    } else {
      ContainsAt(s[1..], p);
      if StartsWith(s, p) {
        assert OccursAt(s, 0, p);
      } else if Contains(s[1..], p) {
        var i :| OccursAt(s[1..], i, p);
        assert OccursAt(s, i + 1, p);
      }
      if i :| OccursAt(s, i, p) {
        if i > 0 {
          assert OccursAt(s[1..], i - 1, p);
        }
      }
    }
  }

  /** Prefixing a character that cannot begin the pattern does not create an occurrence. */
  lemma ContainsAfterPrefixChar(c: char, s: string, p: string)
    requires |p| > 0 && p[0] != c
    ensures Contains([c] + s, p) <==> Contains(s, p)
  {
    assert ([c] + s)[1..] == s;
  }

  /** `str::trim_start_matches` with a string pattern: strips EVERY leading copy. */
  function TrimStartMatches(s: string, p: string): (r: string)
    ensures |r| <= |s| && r == s[|s| - |r|..]
    ensures p != [] ==> !StartsWith(r, p)
    ensures !StartsWith(s, p) ==> r == s
    decreases |s|
  {
    if p != [] && StartsWith(s, p) then TrimStartMatches(s[|p|..], p) else s
  }

  /** `str::trim_end_matches` with a character pattern: strips EVERY trailing copy. */
  function TrimEndChar(s: string, c: char): (r: string)
    ensures |r| <= |s| && r == s[..|r|]
    ensures r == [] || r[|r| - 1] != c
    ensures forall i :: |r| <= i < |s| ==> s[i] == c
  {
    if |s| > 0 && s[|s| - 1] == c then TrimEndChar(s[..|s| - 1], c) else s
  }

  /** `str::replace(c, "")`: every occurrence of `c` removed, the rest kept in order. */
  function RemoveChar(s: string, c: char): (r: string)
    ensures forall x :: x in r <==> x in s && x != c
    ensures |r| <= |s|
    ensures c !in s ==> r == s
  {
    if |s| == 0 then []
    else
      assert s == [s[0]] + s[1..];
      (if s[0] == c then [] else [s[0]]) + RemoveChar(s[1..], c)
  }

  /** The characters of `s` that are not in `cs`, in order. */
  function Filter(s: string, cs: set<char>): (r: string)
    ensures forall x :: x in r <==> x in s && x !in cs
  {
    if |s| == 0 then []
    else (if s[0] in cs then [] else [s[0]]) + Filter(s[1..], cs)
  }
}

=== FILE: wrappers.dfy ===
/** Failure-carrying datatypes shared by every module of the model.
    An `Err` stands for a call that the program ends with a panic
    (an `unwrap` on a failed parse, an out-of-bounds row index, a rejected
    HTTP status). */
module Wrappers {

  datatype Option<+T> = None | Some(value: T) {
    function GetOr(default: T): T {
      match this
      case Some(v) => v
      case None => default
    }
  }

  datatype Result<+R, +E> = Ok(value: R) | Err(error: E) {
    predicate IsFailure() {
      Err?
    }

    function PropagateFailure<U>(): Result<U, E>
      requires Err?
    {
      Err(error)
    }

    function Extract(): R
      requires Ok?
    {
      value
    }
  }
}
